=== FILE: README.md ===
# Li-Cai relators of right-angled Coxeter groups, in Dafny

The modelled code takes a finite simple graph Γ and a closed walk in Γ. It computes the single relation that the walk gives among the
Li-Cai generators L(i, J) of the right-angled Coxeter group of Γ. It then rewrites that relation into a reduced word of *distinguished*
generators. A generator L(i, J) is distinguished when i and max J lie in different components of Γ restricted to J, and i is the least
vertex of its own component. The model covers all of `lib.py` except what is listed under "## Left out".

- `Generators`: the signed generator `Gen`, its sign copy and negation.
- `Words`: words in the free group on the generators, kept freely reduced by the one cancellation rule of `AddLetter`.
  - Concatenation (`Word.__add__`), inversion (unary `-`), subtraction and `LTW` all reuse that rule.
  - `RevNeg` (reverse and negate every letter) is the reference inverse.
- `Graphs`: the graph queries, defined natively instead of through networkx.
  - `AreInSameComponent`, `MinInComponent` and `FirstStep` are computed from breadth-first layers.
  - Each is tied to a walk-based reference definition (`Reachable`, `ReachableWithin`).
  - `Induced` is `graph.subgraph`.
- `Engine`: `GenIsDistinguished`, the shift `GenShift`, and the mutually recursive `GenMakeDistinguished` / `WordMakeDistinguished`.
  - Termination is proved without fuel. `Rank` is a measure built from the size of J, the distance from i to the vertex the shift
    heads for, and the sign.
- `EngineProperties`: base cases, fixed points and idempotence of the engine.
- `EngineSoundness`: each rewriting step of `GenMakeDistinguished` is an identity of the right-angled Coxeter group.
  - The shift, `L(max J, J) = 1` and the edge drop each replace L(i, J) by a word whose spelling simplifies to the spelling of L(i, J).
- `Relations`: `PathRelation` and `ReducedPathRelation`.
- `Encoding`: `inttochar`/`chartoint`, `GenToStr`, `WordToStr`.
  - A word of L-generators is spelled as a string with one character per vertex.
  - Python strings are modelled as sequences of code points.
- `Simplify`: `SimplifyStr` and `IsARelation`.
  - `ReducesTo` is the reference definition of simplification: a sequence of cancellations, each removing two equal characters whose
    vertices are separated only by neighbours.
  - `SimplifyStr` is proved to produce such a simplification, and to stop only on strings where no position passes its test.
  - In a graph without self-loops, those are exactly the irreducible strings.
  - The free-group operations of `Words` are shown sound for the encoding: the spelling of `a + b` simplifies to the spelling of
    `Concat(a, b)`.

## Model

| member | source | states |
|---|---|---|
| Generators.WithSign | lib.py:40-45 | the two-argument constructor keeps elem and ambient set, takes the given sign, and returns K itself exactly when the sign is unchanged |
| Generators.Neg | lib.py:55-56 | negation keeps elem and ambient set and always gives a different generator |
| Generators.NegInvolutive | lib.py:55-59 | negating twice gives back the generator, so negation is injective under structural equality |
| Words.AddLetter | lib.py:113-120 | appending x either drops the last letter or appends x; it drops exactly when the last letter is the inverse of x; free reducedness is preserved |
| Words.AddLetterUndo | lib.py:113-120 | on a reduced word, adding x and then its inverse gives back the word |
| Words.Concat | lib.py:130-135 | `+` keeps reduced words reduced; the result uses only letters of the operands; its length is at most the sum, and smaller by an even number |
| Words.ConcatSplit | lib.py:130-135 | adding s + t letter by letter is adding s, then t |
| Words.ConcatNoCancel | lib.py:130-135 | when a + b is already reduced, `+` is plain concatenation |
| Words.ConcatCancelsSuffix | lib.py:130-144 | adding the reversed negation of a suffix s cancels s exactly |
| Words.Invert | lib.py:140-144 | unary `-` always returns a reduced word no longer than its argument |
| Words.InvertReduced | lib.py:140-144 | on a reduced word, unary `-` is reverse-and-negate with no cancellation |
| Words.InvertInvolutive | lib.py:140-144 | `-(-W) == W` for reduced W |
| Words.ConcatInverse | lib.py:130-144 | W + (-W) and W - W are the empty word for reduced W |
| Words.Minus | lib.py:137-138 | `-` keeps reduced words reduced |
| Words.LTW | lib.py:163-167 | LTW returns a reduced word made of letters of its input |
| Words.LTWReduced | lib.py:163-167 | LTW leaves an already reduced letter sequence unchanged |
| Graphs.Induced | lib.py:190 | the subgraph on S has vertex set V ∩ S and stays a simple graph |
| Graphs.InducedEdge | lib.py:190 | an edge of the subgraph on S is an edge of the graph with both ends in S, and conversely |
| Graphs.InducedTwice | lib.py:240-258 | restricting to S and then to T ⊆ S is restricting to T |
| Graphs.InducedSelf | lib.py:190 | a graph restricted to all its vertices is itself |
| Graphs.Min | lib.py:179 | `min` of a non-empty set is a member below every member |
| Graphs.Max | lib.py:189 | `max` of a non-empty set is a member above every member |
| Graphs.ComponentIsReachable | lib.py:175 | `Component(g, i)`, the model of `node_connected_component(G, i)`, is exactly the set of vertices joined to i by a walk |
| Graphs.ReachableSymmetric | lib.py:174-175 | being in the same component is symmetric |
| Graphs.ReachableTransitive | lib.py:174-175 | being in the same component is transitive |
| Graphs.SameComponent | lib.py:174-179 | all vertices of a component have that same component |
| Graphs.AreInSameComponent | lib.py:174-175 | true exactly when a walk joins i and j |
| Graphs.MinInComponent | lib.py:178-179 | the result is reachable from i and at most every vertex reachable from i |
| Graphs.Dist | lib.py:182-183 | the shortest-path length lies in the first layer containing j, is below \|V\|, and no earlier layer contains j |
| Graphs.DistIsShortestWalk | lib.py:182-183 | some walk of Dist steps joins i to j, and every walk joining them has at least Dist steps |
| Graphs.FirstStepExists | lib.py:182-183 | when i ≠ j are connected, some neighbour of i is one step closer to j |
| Graphs.FirstStep | lib.py:182-183 | success exactly when i ≠ j are connected; NoPath exactly when they are not connected; the step is a neighbour of i in the component of j, one step closer to j |
| Engine.GenIsDistinguished | lib.py:186-196 | true exactly when, in Γ restricted to J, max J is not reachable from i and every vertex reachable from i is at least i |
| Engine.DistinguishedIgnoresSign | lib.py:186-196 | whether a generator is distinguished does not depend on its sign |
| Engine.DistinguishedInduced | lib.py:186-196 | whether a generator is distinguished depends only on the graph induced on its ambient set |
| Engine.InvertDistinguished | lib.py:222-224 | the inverse of a word of distinguished generators over J is again one |
| Engine.ShiftLettersReduced | lib.py:213-216 | the three letters of a shift never cancel, and their inverse is the reversed, negated triple |
| Engine.GenShift | lib.py:206-218 | for non-inverted L(i, J) the word is exactly L(j,J) L(i,J-j) L(j,J-i)^-1; for inverted K it is the inverse triple; every letter is well formed over a subset of J |
| Engine.GenShiftNeg | lib.py:206-208 | the shift of the inverse is the inverse of the shift |
| Engine.RankSmallerSet | lib.py:238-243 | every generator over an ambient set one smaller ranks lower, so the edge branch terminates |
| Engine.RankNeg | lib.py:223-224 | the positive form of an inverted generator ranks lower, so the sign branch terminates |
| Engine.Target | lib.py:246-249 | the vertex the shift heads for (max J when it is in the component of i, otherwise the least vertex of that component) lies in the component of i |
| Engine.ShiftRankDecreases | lib.py:246-251 | every letter of the shift toward a geodesic neighbour ranks lower, so the shift branch terminates |
| Engine.GenMakeDistinguished | lib.py:222-251 | terminates, and returns a reduced word of well-formed generators over J that are distinguished in Γ_J |
| Engine.WordMakeDistinguished | lib.py:254-260 | terminates, and returns a reduced word whose letters are distinguished in Γ |
| EngineProperties.GenMakeDistinguishedNeg | lib.py:223-224 | the result for an inverted generator is the inverse of the result for its positive form, for either sign |
| EngineProperties.GenMakeDistinguishedFixedPoint | lib.py:226-227 | a distinguished generator is returned as the one-letter word [K] |
| EngineProperties.GenMakeDistinguishedMaxVertex | lib.py:229-233 | L(max J, J) and its inverse give the empty word |
| EngineProperties.GenMakeDistinguishedEdgeDrop | lib.py:238-243 | with an edge between i and max J (`HasEdge` is networkx's `has_edge`), the result is that for L(i, J - max J) in the graph restricted to J - max J |
| EngineProperties.WordMakeDistinguishedFixedPoint | lib.py:254-260 | a reduced word of distinguished letters is returned unchanged |
| EngineProperties.GenMakeDistinguishedIdempotent | lib.py:222-260 | rewriting the result of GenMakeDistinguished again changes nothing |
| EngineProperties.WordMakeDistinguishedIdempotent | lib.py:254-260 | WordMakeDistinguished is idempotent |
| EngineProperties.WordMakeDistinguishedSingle | lib.py:257-259 | on a one-letter word it is GenMakeDistinguished in the graph induced on the letter's ambient set |
| EngineSoundness.GenShiftSpelling | lib.py:206-218 | the shift of L(i, J) toward j spells P_J j P_(J-j)^-1 P_(J-j) i P_B^-1 P_B j P_(J-i)^-1, with B = J - {i, j} and P_S the ascending spelling of S |
| EngineSoundness.GenShiftReduces | lib.py:246-251 | for a neighbour j of i, the spelling of GenShift(L(i, J)^±1, j) simplifies to that of L(i, J)^±1: the shift is an identity of the group |
| EngineSoundness.GenShiftRelator | lib.py:246-251 | L(i, J)^±1 followed by the formal inverse of its shift spells a relation (simplifies to the empty string) |
| EngineSoundness.MaxVertexReduces | lib.py:229-233 | L(max J, J)^±1 spells a relation, as the comment `L(max(J),J)=1` states |
| EngineSoundness.EdgeDropReduces | lib.py:235-243 | when i and m = max J are adjacent, the spelling of L(i, J)^±1 simplifies to that of L(i, J - m)^±1, as the comment `L(i,J) = L(i,J\max(J))` states |
| Relations.Cycle | lib.py:271 | the closed walk repeats the path and ends at its first vertex |
| Relations.PathLetters | lib.py:272-275 | the raw relation of a k-vertex walk has 2k letters, one pair per step of the closed walk |
| Relations.PathLettersWellFormed | lib.py:271-275 | on a closed walk of two or more vertices inside J whose consecutive vertices differ, every raw letter is a well-formed generator over a subset of J |
| Relations.PathRelation | lib.py:268-277 | the relation is a reduced word |
| Relations.PathRelationLength | lib.py:268-277 | for three or more distinct vertices nothing cancels: exactly the 2k raw letters |
| Relations.PathRelationSingle | lib.py:268-277 | a one-vertex walk gives the empty word |
| Relations.PathRelationDigon | lib.py:268-277 | a walk on two distinct vertices gives the empty word |
| Relations.SimpleWalkIsClosedWalk | lib.py:271 | a walk of distinct vertices in J closes up without a repeated consecutive vertex |
| Words.PairVanishes | lib.py:113-120 | a letter appended at once before its inverse vanishes from the reduced word |
| Relations.StationaryStepCollapses | lib.py:273-275 | a step c -> c adds L(c, J - c) and then its inverse, which cancel: the relation equals that of the walk with the repeated vertex removed |
| Relations.ClosingStepCollapses | lib.py:271-275 | when the last vertex equals the first, the closing step cancels the same way: the relation equals that of the walk without its last vertex |
| Relations.PathRelationWellFormed | lib.py:268-277 | every letter of the relation of any walk in J is well formed over a subset of J, stationary steps included |
| Relations.ReducedPathRelation | lib.py:279-283 | a reduced word of generators distinguished in Γ restricted to J, for any non-empty walk in J |
| Relations.ReducedPathRelationCollapses | lib.py:273-283 | a stationary step leaves the distinguished relation unchanged |
| Relations.ReducedPathRelationFixed | lib.py:279-283 | when the raw relation already consists of distinguished generators of Γ restricted to J, it is returned unchanged |
| Encoding.IntToChar | lib.py:292-293 | chartoint undoes inttochar |
| Encoding.CharToInt | lib.py:295-296 | every character decodes to a vertex that inttochar can spell |
| Encoding.CharRoundTrip | lib.py:292-296 | inttochar and chartoint are mutually inverse bijections |
| Encoding.SortedElems | lib.py:302 | `sorted` of a set is strictly ascending and holds each element once |
| Encoding.IndexOf | lib.py:304 | the position of the first occurrence of x |
| Encoding.RemoveFirst | lib.py:304 | `list.remove(x)` shortens the list by one, and exactly one occurrence of x leaves its multiset |
| Encoding.RemoveFirstIsSlice | lib.py:304 | `list.remove(x)` deletes the first occurrence of x and keeps the rest in order |
| Encoding.RemoveFirstAscending | lib.py:302-304 | removing i from the sorted list leaves a strictly ascending list without i |
| Encoding.BracketMultiset | lib.py:300-305 | the vertex sequence spelled for L(i, J) holds every vertex of J exactly twice, has length 2\|J\|, and holds nothing else |
| Encoding.GenToStr | lib.py:298-305 | the spelling of a generator has length 2\|J\| |
| Encoding.Spell | lib.py:303 | `''.join(map(inttochar, vs))` has one character per vertex, character k being that of vs[k] |
| Encoding.Reverse | lib.py:300 | `[::-1]`: character k of the result is character n-1-k of the input |
| Encoding.AscendingSpellingUnique | lib.py:301-303 | the spelling of `sorted(J)` is the only strictly ascending string spelling exactly J |
| Encoding.GenToStrParts | lib.py:298-305 | L(i, J) is spelled P_J i P_(J-i) reversed, with P_S the spelling of `sorted(S)` |
| Encoding.AscendingSpellingMax | lib.py:301-303 | with m = max J, the spelling of `sorted(J)` is that of `sorted(J - m)` followed by m |
| Encoding.GenToStrLayout | lib.py:301-305 | for non-inverted L(i, J), spelled from the vertex list `Bracket(i, J)`: the first \|J\| characters spell all of J in strictly ascending order, the next is the character of i, and the rest spell all of J - i in strictly descending order (lib.py:18 gives g1g3g5g8 g3 g8g5g1 for L(3, 1358)) |
| Encoding.GenToStrLetters | lib.py:298-305 | the character of every vertex of J occurs exactly twice, and every character names a vertex of J |
| Encoding.GenToStrNeg | lib.py:298-300 | the spelling of the inverse is the reversed spelling, for either sign |
| Encoding.WordToStr | lib.py:327-328 | the spelling of a word is at least two characters per letter |
| Encoding.WordToStrOrigin | lib.py:327-328 | every character of the spelling names an ambient vertex of some letter |
| Encoding.WordToStrAppend | lib.py:327-328 | spelling turns concatenation of letter sequences into concatenation of strings |
| Encoding.WordToStrRevNeg | lib.py:298-328 | the spelling of the reversed negated word is the reversed spelling |
| Encoding.WordToStrInvert | lib.py:140-144 | the spelling of -W is the reversed spelling of W, for reduced W |
| Simplify.Cancel | lib.py:320-321 | deleting positions i and p shortens the string by two |
| Simplify.CancelMultiset | lib.py:320-321 | deleting positions i and p removes exactly those two characters |
| Simplify.ReducesToTrans | lib.py:309-323 | two simplifications in a row are a simplification |
| Simplify.ReducesToShrinks | lib.py:316-321 | a simplification is no longer than its input, differs in length by an even number, and uses no new characters |
| Simplify.ReducesToSubsequence | lib.py:320-321 | a simplification is a subsequence of its input |
| Simplify.IrreducibleIsFinal | lib.py:307-325 | an irreducible string simplifies only to itself |
| Simplify.ReducesToContext | lib.py:312-318 | a simplification stays valid with any text before and after it |
| Simplify.MirrorReducesToEmpty | lib.py:312-318 | a string followed by its reversal simplifies to the empty string, in every graph |
| Simplify.ReducesToReverse | lib.py:316-321 | the reversal of a simplification is a simplification of the reversed strings, so inverses respect simplification |
| Simplify.EqualTimesInverseReduces | lib.py:316-321 | if y simplifies to x, then x followed by y reversed simplifies to the empty string |
| Simplify.CommutingTripleReduces | lib.py:316-321 | c d c simplifies to d inside any context when c and d commute |
| Simplify.ShiftCollapse | lib.py:316-321 | P c M1 M1^r d M2 M2^r c Q simplifies to P d Q when c and d commute |
| Simplify.TrivialRelator | lib.py:327-332 | the spelling of w followed by its reversed negation simplifies to the empty string |
| Simplify.AddLetterReduces | lib.py:113-120 | the spelling of w + [x] simplifies to the spelling of AddLetter(w, x) |
| Simplify.ConcatReduces | lib.py:130-135 | the spelling of the plain concatenation a + b simplifies to the spelling of Word.__add__(a, b) |
| Simplify.LTWReduces | lib.py:163-167 | the spelling of a letter sequence simplifies to the spelling of its LTW |
| Simplify.NextFrom | lib.py:316-317 | finds the first position at or after j holding c, or reports that none exists |
| Simplify.CodeTest | lib.py:316-319 | a passing position i has a next occurrence p of s[i], and i, p form a cancellable pair (`Commutes` is the `graph.has_edge(chartoint(lt), chartoint(ot))` of lib.py:318) |
| Simplify.CodeTestFirstPair | lib.py:316-319 | the test passes exactly when s[i] has a cancellable partner that is its next occurrence |
| Simplify.StuckIffIrreducible | lib.py:311-319 | in a graph without self-loops, no position passes the test exactly when no pair of characters can be cancelled |
| Simplify.ScanPos | lib.py:314 | the scan position lies in [0, n) and wraps around: t + c itself when it is in range, t + c - n past the end, n - 1 for t + c = -1 (currshift = -1) |
| Simplify.ScanPosCovers | lib.py:313-314 | the cyclic scan from any shift visits every position |
| Simplify.Scan | lib.py:310-324 | returns the first scan index in cyclic order whose position passes the test; returns none only if no position passes |
| Simplify.SimplifyStr | lib.py:307-325 | terminates, returns a simplification of the input on which no position passes the test, and the result is a subsequence no longer than the input and of the same parity |
| Simplify.PyEq | lib.py:332 | Python `==` between a string and a number is false, and between strings compares contents |
| Simplify.PyLen | lib.py:332 | `len` succeeds exactly on strings, giving their length |
| Simplify.VerdictIntended | lib.py:332 | `len(t) == 0` holds exactly for the empty string |
| Simplify.VerdictAsWritten | lib.py:332 | `len(t == 0)` raises TypeError for every string t |
| Simplify.IsARelationAsWritten | lib.py:330-332 | IsARelation as written never returns a verdict: it always raises TypeError |
| Simplify.IsARelation | lib.py:330-332 | corrected IsARelation: a true answer means the spelling simplifies to the empty string; the empty word is a relation; on an irreducible spelling the answer is true exactly for the empty word |

## Left out

- networkx itself is replaced by `Graphs`: a vertex set plus a symmetric edge set without self-loops.
  - Multigraphs and self-loops are not modelled.
- Graphs.FirstStep: it returns the least-labelled neighbour of i that is one step closer to j. networkx breaks ties among geodesics
  by its own search order, which is not modelled. The proofs use only the contract of `FirstStep` (a neighbour one step closer).
  The pivot feeds `GenShift`, so the word `GenMakeDistinguished` returns can differ from the program's when i has several
  geodesic neighbours. An example is the square 1-2, 1-3, 2-4, 3-4 with J = {1, 2, 3, 4}, where `L(1, J)` may shift through 2 or 3.
  The output agrees with the program's wherever geodesic neighbours are unique. That holds in every forest, so it holds for a
  cycle graph Γ such as the m-gon's: PathRelation's letters have ambient set J minus a vertex. Every letter the engine produces
  has that ambient set or a subset of it, so each induces a forest.
- Engine.GenMakeDistinguished: the result is proved to be a reduced word of distinguished generators, but it is not proved equal to
  L(i, J) in the group. `Simplify.ReducesTo` can express that equality. Each single rewriting step is proved to be an identity of
  the group (`EngineSoundness.GenShiftReduces`, `MaxVertexReduces`, `EdgeDropReduces`). Composing them through the recursion needs
  the equivalence closure of `ReducesTo` (simplification in both directions), which is not built.
- Engine.WordMakeDistinguished: as for GenMakeDistinguished, group equality with the input is not proved.
- Simplify.IsARelation: only a true answer is proved sound. Proving that a false answer means the word is not a relation needs uniqueness
  of irreducible forms (confluence), which is not proved. The answer is pinned down only for irreducible spellings.
- Encoding.IntToChar: `chr` raises ValueError outside the code-point range. The model makes an encodable vertex a precondition instead
  of modelling that error.
- Engine.GenIsDistinguished and the engine require the ambient set of every generator to lie inside the graph's vertex set. networkx
  would raise on a missing `elem`, and would silently drop other missing vertices in `subgraph`.
- Relations.ReducedPathRelation requires the vertices of the walk to lie in J. A vertex outside J can give letters whose vertex is
  missing from their ambient set. Unless those cancel, networkx raises for a vertex missing from the subgraph, an error the model
  does not represent.
  Stationary steps c -> c need no precondition: they append L(c, J - c) and at once its inverse, which AddLetter cancels
  (`Relations.StationaryStepCollapses`, `Relations.ClosingStepCollapses`).
- Relations.PathRelation requires a non-empty path. On an empty path lib.py:271 raises IndexError at `path[0]`, an error the model
  does not represent.
- `Gen.__hash__` (lib.py:49-50) raises TypeError because it adds a list to a set. It is never needed: equality is structural, and in
  the model it is datatype equality.
- `Gen.__len__` and `Word.__len__` are the sizes of the ambient set and of the letter sequence.
- `Word.__eq__` is sequence equality.
- `OneLetterWord` and the `Word(K, inverted)` constructor are `[K]` and `[Neg(K)]` in the model.
- Cosmetic text forms are left out: `StringForm`, `__str_`, `__repr__`, `__str__` (lib.py:64-83, 146-152).
- Print-only error paths of the variadic constructors are left out (lib.py:25-27, 47, 111). The condition i ∈ J is the `WellFormed`
  predicate instead.
- The unused `m` parameter of `SimplifyStr` and `IsARelation` is dropped.
- `m-gon.py` is the driver that builds the cycle graph, times and prints. It is not part of this model.

## Findings

| source | as written | input that shows it | evidently intended | confidence | as-written member | corrected member |
|---|---|---|---|---|---|---|
| lib.py:332 | `return len(SimplifyStr(s,m,graph) == 0)` compares the string with 0 and applies `len` to the resulting bool, which raises TypeError | any word, e.g. the empty word `Word()`, whose spelling simplifies to `''` | `return len(SimplifyStr(s,m,graph)) == 0` | not executed | Simplify.IsARelationAsWritten | Simplify.IsARelation |

`Simplify.VerdictDiscrepancy` exhibits the discrepancy on the empty word: the written verdict fails, the intended one is true.

=== FILE: encoding.dfy ===
/**
  The string encoding of lib.py used to check relations in the right-angled
  Coxeter group: vertex k is the character chr(k + ord('a')), and L(i, J) is
  spelled as the word g_J g_i g_(J-i) reversed over these characters.
*/
module Encoding {
  import opened Generators
  import opened Words
  import opened Graphs

  /** A character of a Python string: a code point. */
  type CodePoint = c: int | 0 <= c < 0x11_0000

  type Str = seq<CodePoint>

  /** ord('a'). */
  const Offset: int := 97

  /** chr(v + ord('a')) exists. */
  predicate Encodable(v: int) {
    0 <= v + Offset < 0x11_0000
  }

  /** Every vertex of the ambient set of a well-formed generator can be spelled. */
  predicate EncodableGen(K: Gen) {
    WellFormed(K) && forall v | v in K.amb :: Encodable(v)
  }

  /** lib.py inttochar. */
  function IntToChar(k: int): (c: CodePoint)
    requires Encodable(k)
    ensures CharToInt(c) == k
  {
    k + Offset
  }

  /** lib.py chartoint. */
  function CharToInt(c: CodePoint): (k: int)
    ensures Encodable(k)
  {
    c - Offset
  }

  /** inttochar and chartoint are mutually inverse. */
  lemma CharRoundTrip(c: CodePoint, k: int)
    ensures IntToChar(CharToInt(c)) == c
    ensures Encodable(k) ==> CharToInt(IntToChar(k)) == k
    ensures Encodable(k) ==> (IntToChar(k) == c <==> CharToInt(c) == k)
  {
  }

  lemma MultisetOfSetSplit(s: set<int>, m: int)
    requires m in s
    ensures multiset(s) == multiset{m} + multiset(s - {m})
  {
    assert s == {m} + (s - {m});
  }

  /** Python's `sorted` on a set of integers: strictly ascending, each element once. */
  function SortedElems(s: set<int>): (r: seq<int>)
    ensures forall a, b | 0 <= a < b < |r| :: r[a] < r[b]
    ensures multiset(r) == multiset(s)
    decreases |s|
  {
    if s == {} then []
    else
      var m := Min(s);
      var rest := SortedElems(s - {m});
      MultisetOfSetSplit(s, m);
      var r := [m] + rest;
      forall a, b | 0 <= a < b < |r|
        ensures r[a] < r[b]
      {
        if a == 0 {
          assert rest[b - 1] in multiset(s - {m});
        }
      }
      r
  }

  lemma SortedElemsFacts(s: set<int>)
    ensures |SortedElems(s)| == |s|
    ensures forall x :: x in SortedElems(s) <==> x in s
  {
    var r := SortedElems(s);
    assert |multiset(r)| == |multiset(s)|;
    forall x
      ensures x in r <==> x in s
    {
      assert x in r <==> x in multiset(r);
    }
  }

  /** `lst.index(x)`: the position of the first occurrence of x. */
  function IndexOf(lst: seq<int>, x: int): (k: nat)
    requires x in lst
    ensures k < |lst| && lst[k] == x
    ensures x !in lst[..k]
  {
    if lst[0] == x then 0
    else
      var k := IndexOf(lst[1..], x);
      assert lst[..k + 1] == [lst[0]] + lst[1..][..k];
      k + 1
  }

  /** Python's `list.remove(x)`: drop the first occurrence of x, keeping the order of the rest. */
  function RemoveFirst(lst: seq<int>, x: int): (r: seq<int>)
    requires x in lst
    ensures |r| == |lst| - 1
    ensures multiset(r) == multiset(lst) - multiset{x}
  {
    if lst[0] == x then
      assert lst == [lst[0]] + lst[1..];
      lst[1..]
    else
      assert lst == [lst[0]] + lst[1..];
      [lst[0]] + RemoveFirst(lst[1..], x)
  }

  /** `list.remove(x)` deletes the first occurrence of x and keeps the rest in order. */
  lemma {:induction false} RemoveFirstIsSlice(lst: seq<int>, x: int)
    requires x in lst
    ensures RemoveFirst(lst, x) == lst[..IndexOf(lst, x)] + lst[IndexOf(lst, x) + 1..]
  {
    if lst[0] != x {
      assert lst == [lst[0]] + lst[1..];
      var k := IndexOf(lst[1..], x);
      RemoveFirstIsSlice(lst[1..], x);
      ConsSlice(lst, k);
    }
  }

  lemma ConsSlice(lst: seq<int>, k: nat)
    requires k + 1 < |lst|
    ensures [lst[0]] + (lst[1..][..k] + lst[1..][k + 1..]) == lst[..k + 1] + lst[k + 2..]
  {
    assert lst[..k + 1] == [lst[0]] + lst[1..][..k];
    assert lst[k + 2..] == lst[1..][k + 1..];
  }

  /** Element a of `lst` with x removed is element a, or a + 1 from the removed position on. */
  lemma RemoveFirstAt(lst: seq<int>, x: int, a: int)
    requires x in lst && 0 <= a < |lst| - 1
    ensures var k := IndexOf(lst, x);
            RemoveFirst(lst, x)[a] == lst[if a < k then a else a + 1]
  {
    var k := IndexOf(lst, x);
    RemoveFirstIsSlice(lst, x);
    if a < k {
      assert RemoveFirst(lst, x)[a] == lst[..k][a];
    } else {
      assert RemoveFirst(lst, x)[a] == lst[k + 1..][a - k];
    }
  }

  /** Removing an element of a strictly ascending list leaves it strictly ascending, without that element. */
  lemma RemoveFirstAscending(lst: seq<int>, x: int)
    requires x in lst
    requires forall a, b | 0 <= a < b < |lst| :: lst[a] < lst[b]
    ensures forall a, b | 0 <= a < b < |RemoveFirst(lst, x)| :: RemoveFirst(lst, x)[a] < RemoveFirst(lst, x)[b]
    ensures forall v | v in RemoveFirst(lst, x) :: v in lst && v != x
  {
    var k := IndexOf(lst, x);
    var r := RemoveFirst(lst, x);
    forall a, b | 0 <= a < b < |r|
      ensures r[a] < r[b]
    {
      RemoveFirstAt(lst, x, a);
      RemoveFirstAt(lst, x, b);
    }
    forall v | v in r
      ensures v in lst && v != x
    {
      var a :| 0 <= a < |r| && r[a] == v;
      RemoveFirstAt(lst, x, a);
    }
  }

  function Reverse<T>(s: seq<T>): (r: seq<T>)
    ensures |r| == |s|
    ensures forall k | 0 <= k < |s| :: r[k] == s[|s| - 1 - k]
  {
    seq(|s|, k requires 0 <= k < |s| => s[|s| - 1 - k])
  }

  lemma ReverseMultiset<T>(s: seq<T>)
    ensures multiset(Reverse(s)) == multiset(s)
  {
    if |s| > 0 {
      var s' := s[1..];
      assert s == [s[0]] + s';
      assert Reverse(s) == Reverse(s') + [s[0]];
      ReverseMultiset(s');
    }
  }

  lemma ReverseAppend<T>(a: seq<T>, b: seq<T>)
    ensures Reverse(a + b) == Reverse(b) + Reverse(a)
  {
  }

  lemma ReverseInvolutive<T>(s: seq<T>)
    ensures Reverse(Reverse(s)) == s
  {
  }

  /** `''.join(map(inttochar, vs))`. */
  function Spell(vs: seq<int>): (r: Str)
    requires forall k | 0 <= k < |vs| :: Encodable(vs[k])
    ensures |r| == |vs|
    ensures forall k | 0 <= k < |vs| :: r[k] == IntToChar(vs[k])
  {
    seq(|vs|, k requires 0 <= k < |vs| => IntToChar(vs[k]))
  }

  /** Spelling is injective, so each character occurs as often as its vertex. */
  lemma SpellCount(vs: seq<int>, v: int)
    requires forall k | 0 <= k < |vs| :: Encodable(vs[k])
    requires Encodable(v)
    ensures multiset(Spell(vs))[IntToChar(v)] == multiset(vs)[v]
  {
    if |vs| > 0 {
      var vs' := vs[1..];
      assert vs == [vs[0]] + vs';
      assert Spell(vs) == [IntToChar(vs[0])] + Spell(vs');
      SpellCount(vs', v);
      CharRoundTrip(IntToChar(vs[0]), v);
    }
  }

  /** The vertex sequence GenToStr spells for a non-inverted L(i, J). */
  function Bracket(i: int, J: set<int>): (vs: seq<int>)
    requires i in J
  {
    var lst := SortedElems(J);
    SortedElemsFacts(J);
    lst + [i] + Reverse(RemoveFirst(lst, i))
  }

  /** Every vertex of J occurs exactly twice in the bracket, and nothing else does. */
  lemma BracketMultiset(i: int, J: set<int>)
    requires i in J
    ensures multiset(Bracket(i, J)) == multiset(J) + multiset(J)
    ensures |Bracket(i, J)| == 2 * |J|
    ensures forall v :: v in Bracket(i, J) <==> v in J
  {
    BracketCount(i, J);
    var vs := Bracket(i, J);
    assert |multiset(vs)| == |vs|;
    forall v
      ensures v in vs <==> v in J
    {
      assert v in vs <==> v in multiset(vs);
    }
  }

  lemma BracketCount(i: int, J: set<int>)
    requires i in J
    ensures multiset(Bracket(i, J)) == multiset(J) + multiset(J)
  {
    var lst := SortedElems(J);
    SortedElemsFacts(J);
    var rest := RemoveFirst(lst, i);
    MultisetAppend3(lst, i, Reverse(rest));
    ReverseMultiset(rest);
    MultisetRemoveAdd(multiset(J), i);
  }

  lemma MultisetAppend3(a: seq<int>, x: int, b: seq<int>)
    ensures multiset(a + [x] + b) == multiset(a) + multiset{x} + multiset(b)
  {
  }

  lemma MultisetRemoveAdd(m: multiset<int>, x: int)
    requires x in m
    ensures m + multiset{x} + (m - multiset{x}) == m + m
  {
  }

  /**
    lib.py GenToStr: L(i, J) is spelled as J ascending, then i, then J - i
    descending; an inverted generator is spelled backwards.
  */
  function GenToStr(K: Gen): (r: Str)
    requires EncodableGen(K)
    ensures |r| == 2 * |K.amb|
    decreases K.inverted
  {
    if K.inverted then
      Reverse(GenToStr(Neg(K)))
    else
      BracketMultiset(K.elem, K.amb);
      Spell(Bracket(K.elem, K.amb))
  }

  /**
    The layout of the spelling of a non-inverted L(i, J): the characters of J
    in ascending order, then that of i, then those of J - i in descending order.
  */
  lemma GenToStrLayout(K: Gen)
    requires EncodableGen(K) && !K.inverted
    ensures var r, n := GenToStr(K), |K.amb|;
            && Ascending(r[..n]) && Spells(r[..n], K.amb)
            && r[n] == IntToChar(K.elem)
            && Ascending(Reverse(r[n + 1..])) && Spells(r[n + 1..], K.amb - {K.elem})
  {
    BracketLayout(K.elem, K.amb);
  }

  /** The characters of the vertices of S in ascending order: `''.join(map(inttochar, sorted(S)))`. */
  function AscendingSpelling(S: set<int>): Str
    requires forall v | v in S :: Encodable(v)
  {
    var lst := SortedElems(S);
    SortedElemsFacts(S);
    assert forall k | 0 <= k < |lst| :: Encodable(lst[k]) by {
      forall k | 0 <= k < |lst| ensures Encodable(lst[k]) {
        assert lst[k] in lst;
      }
    }
    Spell(lst)
  }

  /** The ascending spelling of S is strictly ascending and spells exactly S. */
  lemma AscendingSpellingFacts(S: set<int>)
    requires forall v | v in S :: Encodable(v)
    ensures Ascending(AscendingSpelling(S)) && Spells(AscendingSpelling(S), S)
  {
    var lst := SortedElems(S);
    SortedElemsFacts(S);
    SpellAscending(lst, S);
  }

  /** A string spelling S holds exactly the characters of the vertices of S. */
  lemma SpellsMembers(s: Str, S: set<int>)
    requires Spells(s, S)
    ensures forall c: CodePoint :: c in s <==> CharToInt(c) in S
  {
    forall c: CodePoint | CharToInt(c) in S
      ensures c in s
    {
      CharRoundTrip(c, 0);
    }
  }

  /** Two strictly ascending strings with the same characters are equal. */
  lemma {:induction false} AscendingUnique(s: Str, t: Str)
    requires Ascending(s) && Ascending(t)
    requires forall c: CodePoint :: c in s <==> c in t
    ensures s == t
    decreases |s|
  {
    assert |s| > 0 ==> |t| > 0 by {
      if |s| > 0 {
        assert s[0] in t;
      }
    }
    assert |t| > 0 ==> |s| > 0 by {
      if |t| > 0 {
        assert t[0] in s;
      }
    }
    if |s| > 0 {
      assert s[0] == t[0] by {
        assert s[0] in t && t[0] in s;
      }
      forall c: CodePoint
        ensures c in s[1..] <==> c in t[1..]
      {
        assert c in s[1..] <==> c in s && c != s[0];
        assert c in t[1..] <==> c in t && c != t[0];
      }
      AscendingUnique(s[1..], t[1..]);
      assert s == [s[0]] + s[1..] && t == [t[0]] + t[1..];
    }
  }

  /** The ascending spelling of S is the only strictly ascending string spelling S. */
  lemma AscendingSpellingUnique(s: Str, S: set<int>)
    requires Ascending(s) && Spells(s, S)
    ensures s == AscendingSpelling(S)
  {
    AscendingSpellingFacts(S);
    SpellsMembers(s, S);
    SpellsMembers(AscendingSpelling(S), S);
    AscendingUnique(s, AscendingSpelling(S));
  }

  /** Reversal keeps the characters of a string. */
  lemma SpellsReverse(s: Str, S: set<int>)
    requires Spells(s, S)
    ensures Spells(Reverse(s), S)
  {
    forall v | v in S
      ensures IntToChar(v) in Reverse(s)
    {
      var k :| 0 <= k < |s| && s[k] == IntToChar(v);
      assert Reverse(s)[|s| - 1 - k] == s[k];
    }
  }

  /**
    The spelling of L(i, J) as a product of Coxeter generators:
    P_J g_i P_(J-i)^-1, with P_S the ascending spelling of S.
  */
  lemma GenToStrParts(K: Gen)
    requires EncodableGen(K) && !K.inverted
    ensures GenToStr(K) == AscendingSpelling(K.amb) + [IntToChar(K.elem)]
                           + Reverse(AscendingSpelling(K.amb - {K.elem}))
  {
    var r, n := GenToStr(K), |K.amb|;
    GenToStrHead(K);
    GenToStrTail(K);
    SplitAround(r, n, AscendingSpelling(K.amb), IntToChar(K.elem),
                Reverse(AscendingSpelling(K.amb - {K.elem})));
  }

  lemma GenToStrHead(K: Gen)
    requires EncodableGen(K) && !K.inverted
    ensures |K.amb| < |GenToStr(K)|
    ensures GenToStr(K)[..|K.amb|] == AscendingSpelling(K.amb)
    ensures GenToStr(K)[|K.amb|] == IntToChar(K.elem)
  {
    GenToStrLayout(K);
    AscendingSpellingUnique(GenToStr(K)[..|K.amb|], K.amb);
  }

  lemma GenToStrTail(K: Gen)
    requires EncodableGen(K) && !K.inverted
    ensures |K.amb| < |GenToStr(K)|
    ensures GenToStr(K)[|K.amb| + 1..] == Reverse(AscendingSpelling(K.amb - {K.elem}))
  {
    var d := GenToStr(K)[|K.amb| + 1..];
    GenToStrLayout(K);
    SpellsReverse(d, K.amb - {K.elem});
    AscendingSpellingUnique(Reverse(d), K.amb - {K.elem});
    ReverseInvolutive(d);
  }

  /** A string is its part before position n, the character at n, and its part after n. */
  lemma SplitAround(r: Str, n: nat, a: Str, c: CodePoint, d: Str)
    requires n < |r| && r[..n] == a && r[n] == c && r[n + 1..] == d
    ensures r == a + [c] + d
  {
    assert r == r[..n] + [r[n]] + r[n + 1..];
  }

  /** With m = max S, the ascending spelling of S is that of S - m followed by m. */
  lemma AscendingSpellingMax(S: set<int>, m: int)
    requires forall v | v in S :: Encodable(v)
    requires m in S && forall v | v in S :: v <= m
    ensures AscendingSpelling(S) == AscendingSpelling(S - {m}) + [IntToChar(m)]
  {
    var a := AscendingSpelling(S - {m});
    AscendingSpellingFacts(S - {m});
    var s := a + [IntToChar(m)];
    forall x, y | 0 <= x < y < |s|
      ensures s[x] < s[y]
    {
      if y == |a| {
        assert CharToInt(a[x]) in S - {m};
      }
    }
    forall v | v in S
      ensures IntToChar(v) in s
    {
      if v != m {
        assert IntToChar(v) in a;
      } else {
        assert s[|a|] == IntToChar(m);
      }
    }
    AscendingSpellingUnique(s, S);
  }

  /** Strictly ascending code points. */
  predicate Ascending(s: Str) {
    forall a, b | 0 <= a < b < |s| :: s[a] < s[b]
  }

  /** s consists of characters of vertices of S, and spells every vertex of S. */
  predicate Spells(s: Str, S: set<int>) {
    && (forall k | 0 <= k < |s| :: CharToInt(s[k]) in S)
    && (forall v | v in S :: Encodable(v) && IntToChar(v) in s)
  }

  /** Spelling a strictly ascending list of vertices of S that holds all of S. */
  lemma SpellAscending(vs: seq<int>, S: set<int>)
    requires forall a, b | 0 <= a < b < |vs| :: vs[a] < vs[b]
    requires forall v :: v in vs <==> v in S
    requires forall v | v in S :: Encodable(v)
    ensures Ascending(Spell(vs)) && Spells(Spell(vs), S)
  {
    var r := Spell(vs);
    forall v | v in S
      ensures IntToChar(v) in r
    {
      var k :| 0 <= k < |vs| && vs[k] == v;
      assert r[k] == IntToChar(v);
    }
  }

  /** The three parts of the bracket: J ascending, i, then J - i descending. */
  lemma BracketLayout(i: int, J: set<int>)
    requires i in J && forall v | v in J :: Encodable(v)
    ensures |Bracket(i, J)| == 2 * |J|
    ensures forall k | 0 <= k < |Bracket(i, J)| :: Encodable(Bracket(i, J)[k])
    ensures var r := Spell(Bracket(i, J));
            && Ascending(r[..|J|]) && Spells(r[..|J|], J)
            && r[|J|] == IntToChar(i)
            && Ascending(Reverse(r[|J| + 1..])) && Spells(r[|J| + 1..], J - {i})
  {
    var lst := SortedElems(J);
    SortedElemsFacts(J);
    var rest := RemoveFirst(lst, i);
    RemoveFirstAscending(lst, i);
    RemoveFirstMembers(lst, i, J);
    assert forall k | 0 <= k < |lst| :: Encodable(lst[k]) by {
      forall k | 0 <= k < |lst| ensures Encodable(lst[k]) {
        assert lst[k] in lst;
      }
    }
    DescendingTail(rest, J - {i});
    SpellAscending(lst, J);
    LayoutOfParts(lst, i, rest, J);
    assert Bracket(i, J) == lst + [i] + Reverse(rest);
  }

  /** Assembling the layout from the layouts of the three parts. */
  lemma LayoutOfParts(lst: seq<int>, i: int, rest: seq<int>, J: set<int>)
    requires |lst| == |J| && |rest| + 1 == |J| && Encodable(i)
    requires forall k | 0 <= k < |lst| :: Encodable(lst[k])
    requires forall k | 0 <= k < |Reverse(rest)| :: Encodable(Reverse(rest)[k])
    requires Ascending(Spell(lst)) && Spells(Spell(lst), J)
    requires Ascending(Reverse(Spell(Reverse(rest)))) && Spells(Spell(Reverse(rest)), J - {i})
    ensures |lst + [i] + Reverse(rest)| == 2 * |J|
    ensures forall k | 0 <= k < |lst + [i] + Reverse(rest)| :: Encodable((lst + [i] + Reverse(rest))[k])
    ensures var r := Spell(lst + [i] + Reverse(rest));
            && Ascending(r[..|J|]) && Spells(r[..|J|], J)
            && r[|J|] == IntToChar(i)
            && Ascending(Reverse(r[|J| + 1..])) && Spells(r[|J| + 1..], J - {i})
  {
    SpellSplit(lst, i, Reverse(rest));
  }

  /** Removing i from the sorted elements of J leaves exactly the elements of J - i. */
  lemma RemoveFirstMembers(lst: seq<int>, i: int, J: set<int>)
    requires lst == SortedElems(J) && i in J
    requires i in lst
    ensures forall v :: v in RemoveFirst(lst, i) <==> v in J - {i}
  {
    SortedElemsFacts(J);
    RemoveFirstAscending(lst, i);
    var rest := RemoveFirst(lst, i);
    forall v | v in J - {i}
      ensures v in rest
    {
      assert v in multiset(lst) - multiset{i};
      assert v in multiset(rest);
    }
  }

  /** Spelling a + [x] + b, cut into its three parts. */
  lemma SpellSplit(a: seq<int>, x: int, b: seq<int>)
    requires forall k | 0 <= k < |a| :: Encodable(a[k])
    requires forall k | 0 <= k < |b| :: Encodable(b[k])
    requires Encodable(x)
    ensures forall k | 0 <= k < |a + [x] + b| :: Encodable((a + [x] + b)[k])
    ensures var r := Spell(a + [x] + b);
            r[..|a|] == Spell(a) && r[|a|] == IntToChar(x) && r[|a| + 1..] == Spell(b)
  {
    var vs := a + [x] + b;
    assert forall k | 0 <= k < |a| :: a[k] == vs[k];
    assert forall k | 0 <= k < |b| :: b[k] == vs[|a| + 1 + k];
    assert vs[|a|] == x;
  }

  /** The reversal of a strictly ascending list, spelled, reads backwards in ascending order. */
  lemma DescendingTail(rest: seq<int>, S: set<int>)
    requires forall a, b | 0 <= a < b < |rest| :: rest[a] < rest[b]
    requires forall v :: v in rest <==> v in S
    requires forall v | v in S :: Encodable(v)
    ensures forall k | 0 <= k < |Reverse(rest)| :: Encodable(Reverse(rest)[k])
    ensures Ascending(Reverse(Spell(Reverse(rest)))) && Spells(Spell(Reverse(rest)), S)
  {
    SpellAscending(rest, S);
    ReverseSpell(rest);
    ReverseInvolutive(Spell(rest));
    ReverseInvolutive(rest);
    SpellReverseMembers(Reverse(rest), rest, S);
  }

  lemma ReverseSpell(vs: seq<int>)
    requires forall k | 0 <= k < |vs| :: Encodable(vs[k])
    ensures forall k | 0 <= k < |Reverse(vs)| :: Encodable(Reverse(vs)[k])
    ensures Reverse(Spell(vs)) == Spell(Reverse(vs))
  {
  }

  lemma SpellReverseMembers(vs: seq<int>, ws: seq<int>, S: set<int>)
    requires vs == Reverse(ws)
    requires forall k | 0 <= k < |ws| :: Encodable(ws[k])
    requires Spells(Spell(ws), S)
    ensures forall k | 0 <= k < |vs| :: Encodable(vs[k])
    ensures Spells(Spell(vs), S)
  {
    var r := Spell(vs);
    var q := Spell(ws);
    forall v | v in S
      ensures IntToChar(v) in r
    {
      var k :| 0 <= k < |q| && q[k] == IntToChar(v);
      assert r[|vs| - 1 - k] == q[k];
    }
  }

  lemma BracketInAmbient(i: int, J: set<int>)
    requires i in J
    ensures forall k | 0 <= k < |Bracket(i, J)| :: Bracket(i, J)[k] in J
  {
    BracketCount(i, J);
    DoubledElems(Bracket(i, J), J);
  }

  lemma DoubledElems(vs: seq<int>, J: set<int>)
    requires multiset(vs) == multiset(J) + multiset(J)
    ensures forall k | 0 <= k < |vs| :: vs[k] in J
  {
    forall k | 0 <= k < |vs|
      ensures vs[k] in J
    {
      assert vs[k] in multiset(vs);
    }
  }

  /** A spelled character comes from a vertex of the spelled sequence. */
  lemma SpellOrigin(vs: seq<int>, J: set<int>)
    requires forall k | 0 <= k < |vs| :: vs[k] in J && Encodable(vs[k])
    ensures forall c | c in Spell(vs) :: CharToInt(c) in J
  {
    var r := Spell(vs);
    forall c | c in r
      ensures CharToInt(c) in J
    {
      var k :| 0 <= k < |r| && r[k] == c;
      assert CharToInt(IntToChar(vs[k])) == vs[k];
    }
  }

  /** The spelling of a non-inverted generator uses each vertex of J exactly twice. */
  lemma BracketSpelling(i: int, J: set<int>)
    requires i in J && forall v | v in J :: Encodable(v)
    ensures forall k | 0 <= k < |Bracket(i, J)| :: Encodable(Bracket(i, J)[k])
    ensures forall v | v in J :: multiset(Spell(Bracket(i, J)))[IntToChar(v)] == 2
    ensures forall c | c in Spell(Bracket(i, J)) :: CharToInt(c) in J
  {
    var vs := Bracket(i, J);
    BracketInAmbient(i, J);
    BracketCount(i, J);
    SpellOrigin(vs, J);
    forall v | v in J
      ensures multiset(Spell(vs))[IntToChar(v)] == 2
    {
      SpellCount(vs, v);
    }
  }

  /**
    The character multiset of GenToStr(K): the character of each ambient
    vertex twice, and no other character.
  */
  lemma GenToStrLetters(K: Gen)
    requires EncodableGen(K)
    ensures forall v | v in K.amb :: multiset(GenToStr(K))[IntToChar(v)] == 2
    ensures forall c | c in GenToStr(K) :: CharToInt(c) in K.amb
    decreases K.inverted
  {
    BracketSpelling(K.elem, K.amb);
    if K.inverted {
      var s := GenToStr(Neg(K));
      GenToStrLetters(Neg(K));
      ReverseMultiset(s);
      forall c | c in Reverse(s)
        ensures c in s
      {
        assert c in multiset(Reverse(s));
      }
    }
  }

  /** The spelling of the inverse is the reversed spelling, for either sign. */
  lemma GenToStrNeg(K: Gen)
    requires EncodableGen(K)
    ensures EncodableGen(Neg(K))
    ensures GenToStr(Neg(K)) == Reverse(GenToStr(K))
  {
    NegInvolutive(K);
    if K.inverted {
      ReverseInvolutive(GenToStr(Neg(K)));
    }
  }

  predicate EncodableWord(W: Word) {
    forall x | x in W :: EncodableGen(x)
  }

  lemma EncodableAppend(a: Word, b: Word)
    ensures EncodableWord(a + b) <==> EncodableWord(a) && EncodableWord(b)
  {
    assert forall x | x in a :: x in a + b;
    assert forall x | x in b :: x in a + b;
  }

  lemma WordToStrLetter(x: Gen)
    requires EncodableGen(x)
    ensures EncodableWord([x])
    ensures |GenToStr(x)| >= 2
  {
    assert x.elem in x.amb;
  }

  /** lib.py WordToStr: the spellings of the letters, concatenated. */
  function WordToStr(W: Word): (r: Str)
    requires EncodableWord(W)
    ensures |r| >= 2 * |W|
  {
    if |W| == 0 then []
    else
      EncodableAppend([W[0]], W[1..]);
      WordToStrLetter(W[0]);
      GenToStr(W[0]) + WordToStr(W[1..])
  }

  /** Every character of the spelling names an ambient vertex of some letter. */
  lemma {:induction false} WordToStrOrigin(W: Word)
    requires EncodableWord(W)
    ensures forall c | c in WordToStr(W) :: exists x | x in W :: CharToInt(c) in x.amb
    decreases |W|
  {
    if |W| > 0 {
      assert W[0] in W && forall x | x in W[1..] :: x in W;
      WordToStrOrigin(W[1..]);
      GenToStrLetters(W[0]);
      forall c | c in WordToStr(W)
        ensures exists x | x in W :: CharToInt(c) in x.amb
      {
        if c in GenToStr(W[0]) {
          assert CharToInt(c) in W[0].amb;
        } else {
          assert c in WordToStr(W[1..]);
        }
      }
    }
  }

  /** Spelling is a homomorphism from letter sequences to strings. */
  lemma {:induction false} WordToStrAppend(a: Word, b: Word)
    requires EncodableWord(a) && EncodableWord(b)
    ensures EncodableWord(a + b)
    ensures WordToStr(a + b) == WordToStr(a) + WordToStr(b)
    decreases |a|
  {
    EncodableAppend(a, b);
    if |a| > 0 {
      var x, a' := a[0], a[1..];
      assert a == [x] + a';
      assert a + b == [x] + (a' + b);
      EncodableAppend([x], a');
      WordToStrAppend(a', b);
      calc {
        WordToStr(a + b);
        { WordToStrCons(x, a' + b); }
        GenToStr(x) + WordToStr(a' + b);
        GenToStr(x) + (WordToStr(a') + WordToStr(b));
        { AppendAssoc(GenToStr(x), WordToStr(a'), WordToStr(b)); }
        (GenToStr(x) + WordToStr(a')) + WordToStr(b);
        { WordToStrCons(x, a'); }
        WordToStr(a) + WordToStr(b);
      }
    } else {
      assert a + b == b;
    }
  }

  lemma AppendAssoc<T>(a: seq<T>, b: seq<T>, c: seq<T>)
    ensures a + (b + c) == (a + b) + c
  {
  }

  lemma WordToStrCons(x: Gen, w: Word)
    requires EncodableGen(x) && EncodableWord(w)
    ensures EncodableWord([x] + w)
    ensures WordToStr([x] + w) == GenToStr(x) + WordToStr(w)
  {
    EncodableAppend([x], w);
    WordToStrLetter(x);
    assert ([x] + w)[0] == x && ([x] + w)[1..] == w;
  }

  lemma EncodableRevNeg(w: Word)
    requires EncodableWord(w)
    ensures EncodableWord(RevNeg(w))
  {
    forall y | y in RevNeg(w)
      ensures EncodableGen(y)
    {
      var k :| 0 <= k < |w| && y == RevNeg(w)[k];
      GenToStrNeg(w[|w| - 1 - k]);
    }
  }

  lemma WordToStrSingle(x: Gen)
    requires EncodableGen(x)
    ensures EncodableWord([x])
    ensures WordToStr([x]) == GenToStr(x)
  {
    WordToStrLetter(x);
    var w := [x];
    assert w[0] == x && w[1..] == [];
    assert WordToStr(w) == GenToStr(x) + WordToStr([]);
    assert GenToStr(x) + [] == GenToStr(x);
  }

  /** The spelling of the formal inverse is the spelling reversed. */
  lemma {:induction false} WordToStrRevNeg(w: Word)
    requires EncodableWord(w)
    ensures EncodableWord(RevNeg(w))
    ensures WordToStr(RevNeg(w)) == Reverse(WordToStr(w))
    decreases |w|
  {
    EncodableRevNeg(w);
    if |w| > 0 {
      var x, w' := w[0], w[1..];
      assert w == [x] + w';
      EncodableAppend([x], w');
      assert x in w;
      assert RevNeg(w) == RevNeg(w') + [Neg(x)];
      WordToStrRevNeg(w');
      GenToStrNeg(x);
      WordToStrSingle(Neg(x));
      WordToStrAppend(RevNeg(w'), [Neg(x)]);
      ReverseAppend(GenToStr(x), WordToStr(w'));
    }
  }

  lemma WordToStrInvert(w: Word)
    requires EncodableWord(w) && Reduced(w)
    ensures EncodableWord(Invert(w))
    ensures WordToStr(Invert(w)) == Reverse(WordToStr(w))
  {
    InvertReduced(w);
    WordToStrRevNeg(w);
  }
}

=== FILE: engine.dfy ===
/**
  The distinguishing engine of lib.py: GenIsDistinguished, the shift relation
  GenShift, and the mutually recursive GenMakeDistinguished and
  WordMakeDistinguished that rewrite any word into a reduced word of
  distinguished generators.

  GenMakeDistinguished(K, g) is called with g the graph induced on the ambient
  set of K, as every call site in lib.py does. Its termination is proved with
  `Rank`: the size n of the ambient set first, then the distance from the
  vertex of K to the vertex the shift heads for, then the sign.
*/
module Engine {
  import opened Graphs
  import opened Generators
  import opened Words

  /**
    lib.py GenIsDistinguished: in the graph induced on J, the vertex i of
    L(i, J) is not connected to max(J) and is the least vertex of its
    component. The sign of K plays no part.
  */
  function GenIsDistinguished(K: Gen, g: Graph): (r: bool)
    requires Valid(g) && WellFormed(K) && K.amb <= g.V
    ensures var h := Induced(g, K.amb);
            r <==> && !Reachable(h, K.elem, Max(K.amb))
                   && forall x | Reachable(h, K.elem, x) :: K.elem <= x
  {
    var maxel := Max(K.amb);
    var h := Induced(g, K.amb);
    ReachableRefl(h, K.elem);
    if AreInSameComponent(K.elem, maxel, h) then false
    else if K.elem != MinInComponent(K.elem, h) then false
    else true
  }

  lemma DistinguishedIgnoresSign(K: Gen, g: Graph, inverted: bool)
    requires Valid(g) && WellFormed(K) && K.amb <= g.V
    ensures GenIsDistinguished(WithSign(K, inverted), g) == GenIsDistinguished(K, g)
  {
  }

  /** Being distinguished only depends on the graph induced on the ambient set. */
  lemma DistinguishedInduced(K: Gen, g: Graph, S: set<int>)
    requires Valid(g) && WellFormed(K) && K.amb <= S <= g.V
    ensures GenIsDistinguished(K, Induced(g, S)) == GenIsDistinguished(K, g)
  {
    InducedTwice(g, S, K.amb);
  }

  /** Every letter of w is a well-formed generator over J that is distinguished in g. */
  ghost predicate AllDistinguished(w: Word, g: Graph, J: set<int>)
    requires Valid(g) && J <= g.V
  {
    forall x | x in w :: WellFormed(x) && x.amb <= J && GenIsDistinguished(x, g)
  }

  lemma LiftDistinguished(w: Word, g: Graph, S: set<int>, J: set<int>)
    requires Valid(g) && S <= g.V && J <= S
    requires AllDistinguished(w, Induced(g, S), J)
    ensures AllDistinguished(w, g, J)
  {
    forall x | x in w
      ensures GenIsDistinguished(x, g)
    {
      DistinguishedInduced(x, g, S);
    }
  }

  lemma InvertDistinguished(w: Word, g: Graph, J: set<int>)
    requires Valid(g) && J <= g.V
    requires AllDistinguished(w, g, J)
    ensures AllDistinguished(Invert(w), g, J)
  {
    forall x | x in Invert(w)
      ensures WellFormed(x) && x.amb <= J && GenIsDistinguished(x, g)
    {
      var k :| 0 <= k < |w| && x == RevNeg(w)[k];
      var y := w[|w| - 1 - k];
      assert y in w;
      DistinguishedIgnoresSign(y, g, !y.inverted);
    }
  }

  // ---------------------------------------------------------------------------
  // The shift relation
  // ---------------------------------------------------------------------------

  /** The three letters of the shift of L(i, J) toward j. */
  function ShiftLetters(i: int, J: set<int>, j: int): seq<Gen> {
    [L(j, J, false), L(i, J - {j}, false), L(j, J - {i}, true)]
  }

  lemma ShiftLettersReduced(i: int, J: set<int>, j: int)
    requires j != i
    ensures Reduced(ShiftLetters(i, J, j))
    ensures Invert(ShiftLetters(i, J, j))
            == [L(j, J - {i}, false), L(i, J - {j}, true), L(j, J, true)]
  {
    var w := ShiftLetters(i, J, j);
    assert w[1] != Neg(w[0]);
    assert w[2] != Neg(w[1]);
    InvertReduced(w);
  }

  /**
    lib.py GenShift: L(i, J) is rewritten as L(j, J) L(i, J - j) L(j, J - i)^-1,
    and an inverted generator as the inverse of that word.
  */
  function GenShift(K: Gen, j: int): (r: Word)
    requires WellFormed(K) && j in K.amb && j != K.elem
    ensures !K.inverted ==>
      r == [L(j, K.amb, false), L(K.elem, K.amb - {j}, false), L(j, K.amb - {K.elem}, true)]
    ensures K.inverted ==>
      r == [L(j, K.amb - {K.elem}, false), L(K.elem, K.amb - {j}, true), L(j, K.amb, true)]
    ensures forall x | x in r :: WellFormed(x) && x.amb <= K.amb
    decreases K.inverted
  {
    ShiftLettersReduced(K.elem, K.amb, j);
    if K.inverted then
      var w := GenShift(Neg(K), j);
      assert w == ShiftLetters(K.elem, K.amb, j);
      Invert(w)
    else
      var i := K.elem;
      var lets := ShiftLetters(i, K.amb, j);
      LTWReduced(lets);
      LTW(lets)
  }

  /** The shift of the inverse is the inverse of the shift. */
  lemma GenShiftNeg(K: Gen, j: int)
    requires WellFormed(K) && j in K.amb && j != K.elem
    ensures GenShift(Neg(K), j) == Invert(GenShift(K, j))
  {
    var w := GenShift(K, j);
    InvertReduced(w);
    NegInvolutive(K);
    if K.inverted {
      InvertReduced(GenShift(Neg(K), j));
      InvertInvolutive(GenShift(Neg(K), j));
    }
  }

  // ---------------------------------------------------------------------------
  // Termination measure
  // ---------------------------------------------------------------------------

  /** What GenMakeDistinguished expects: K well formed, g a simple graph on exactly J. */
  ghost predicate EngineInput(K: Gen, g: Graph) {
    WellFormed(K) && Valid(g) && g.V == K.amb
  }

  /** The vertex the shift of a non-distinguished K heads for: max(J) if connected, else the least vertex of the component. */
  ghost function Target(K: Gen, g: Graph): (t: int)
    requires EngineInput(K, g)
    ensures t in Component(g, K.elem)
  {
    var m := Max(K.amb);
    var t := if m in Component(g, K.elem) then m else MinInComponent(K.elem, g);
    ComponentIsReachable(g, K.elem, t);
    t
  }

  ghost function Rank(K: Gen, g: Graph): nat
    requires EngineInput(K, g)
  {
    var n := |K.amb|;
    2 * n * n + 2 * Dist(g, K.elem, Target(K, g)) + (if K.inverted then 1 else 0)
  }

  lemma RankBounds(K: Gen, g: Graph)
    requires EngineInput(K, g)
    ensures 2 * |K.amb| * |K.amb| <= Rank(K, g) < 2 * |K.amb| * |K.amb| + 2 * |K.amb|
  {
  }

  /** Every generator over a set one smaller ranks below K. */
  lemma RankSmallerSet(K: Gen, g: Graph, K': Gen, g': Graph)
    requires EngineInput(K, g) && EngineInput(K', g')
    requires |K'.amb| == |K.amb| - 1
    ensures Rank(K', g') < Rank(K, g)
  {
    RankBounds(K, g);
    RankBounds(K', g');
    SquareStep(|K'.amb|);
  }

  lemma SquareStep(m: nat)
    ensures 2 * m * m + 2 * m <= 2 * (m + 1) * (m + 1)
  {
  }

  lemma RankNeg(K: Gen, g: Graph)
    requires EngineInput(K, g) && K.inverted
    ensures EngineInput(Neg(K), g) && Rank(Neg(K), g) < Rank(K, g)
  {
    assert Target(Neg(K), g) == Target(K, g);
  }

  /** The rank of a letter in the graph induced on its own ambient set. */
  ghost function LetterRank(x: Gen, g: Graph): nat {
    if Valid(g) && WellFormed(x) && x.amb <= g.V then Rank(x, Induced(g, x.amb)) else 0
  }

  /** The largest rank of a letter of W. */
  ghost function MaxRank(W: Word, g: Graph): nat
    decreases |W|
  {
    if |W| == 0 then 0
    else
      var a := MaxRank(W[..|W| - 1], g);
      var b := LetterRank(W[|W| - 1], g);
      if a < b then b else a
  }

  lemma MaxRankOfThree(a: Gen, b: Gen, c: Gen, g: Graph, bound: nat)
    requires LetterRank(a, g) < bound && LetterRank(b, g) < bound && LetterRank(c, g) < bound
    ensures MaxRank([a, b, c], g) < bound
  {
    var w := [a, b, c];
    assert [a][..0] == [];
    assert MaxRank([a], g) < bound;
    assert [a, b][..1] == [a];
    assert MaxRank([a, b], g) < bound;
    assert w[..2] == [a, b];
  }

  /** The first letter L(j, J) of the shift heads for the same target, one step closer. */
  lemma FirstShiftLetterRank(K: Gen, g: Graph, j: int)
    requires EngineInput(K, g) && !K.inverted
    requires j in g.V && HasEdge(g, K.elem, j)
    requires Target(K, g) in Component(g, j)
    requires Dist(g, j, Target(K, g)) == Dist(g, K.elem, Target(K, g)) - 1
    ensures EngineInput(L(j, K.amb, false), g)
    ensures Rank(L(j, K.amb, false), g) < Rank(K, g)
  {
    var A := L(j, K.amb, false);
    SameComponent(g, K.elem, j) by {
      BallMono(g, K.elem, 1, |g.V|);
    }
    assert Target(A, g) == Target(K, g);
  }

  /** Every letter of the shift toward a geodesic neighbour j ranks below K. */
  lemma ShiftRankDecreases(K: Gen, g: Graph, j: int)
    requires EngineInput(K, g) && !K.inverted
    requires j in g.V && HasEdge(g, K.elem, j)
    requires Target(K, g) in Component(g, j)
    requires Dist(g, j, Target(K, g)) == Dist(g, K.elem, Target(K, g)) - 1
    ensures j in K.amb && j != K.elem
    ensures MaxRank(GenShift(K, j), g) < Rank(K, g)
  {
    var i, J := K.elem, K.amb;
    var A, B, C := L(j, J, false), L(i, J - {j}, false), L(j, J - {i}, true);
    InducedSelf(g);
    FirstShiftLetterRank(K, g, j);
    RankSmallerSet(K, g, B, Induced(g, B.amb));
    RankSmallerSet(K, g, C, Induced(g, C.amb));
    assert LetterRank(A, g) < Rank(K, g);
    MaxRankOfThree(A, B, C, g, Rank(K, g));
  }

  // ---------------------------------------------------------------------------
  // The engine
  // ---------------------------------------------------------------------------

  /**
    lib.py GenMakeDistinguished: the reduced word of distinguished generators
    equal to K, for g the graph induced on the ambient set of K.
  */
  function GenMakeDistinguished(K: Gen, g: Graph): (r: Word)
    requires EngineInput(K, g)
    ensures Reduced(r)
    ensures AllDistinguished(r, g, K.amb)
    decreases Rank(K, g), 0
  {
    InducedSelf(g);
    if K.inverted then
      RankNeg(K, g);
      var w := GenMakeDistinguished(Neg(K), g);
      InvertDistinguished(w, g, K.amb);
      Invert(w)
    else if GenIsDistinguished(K, g) then
      [K]
    else
      var maxel := Max(K.amb);
      if K.elem == maxel then
        []
      else if HasEdge(g, K.elem, maxel) then
        var newset := K.amb - {maxel};
        var K' := L(K.elem, newset, K.inverted);
        RankSmallerSet(K, g, K', Induced(g, newset));
        var w := GenMakeDistinguished(K', Induced(g, newset));
        LiftDistinguished(w, g, newset, newset);
        w
      else
        var target := if AreInSameComponent(K.elem, maxel, g) then maxel
                      else MinInComponent(K.elem, g);
        ComponentIsReachable(g, K.elem, target);
        assert target == Target(K, g);
        var j := FirstStep(K.elem, target, g).value;
        ShiftRankDecreases(K, g, j);
        WordMakeDistinguished(GenShift(K, j), g)
  }

  /**
    lib.py WordMakeDistinguished: each letter made distinguished in the graph
    induced on its own ambient set, the results concatenated with reduction.
  */
  function WordMakeDistinguished(W: Word, g: Graph): (r: Word)
    requires Valid(g) && forall x | x in W :: WellFormed(x) && x.amb <= g.V
    ensures Reduced(r)
    ensures AllDistinguished(r, g, g.V)
    decreases MaxRank(W, g), |W| + 1
  {
    if |W| == 0 then []
    else
      var last := W[|W| - 1];
      var h := Induced(g, last.amb);
      var w := GenMakeDistinguished(last, h);
      LiftDistinguished(w, g, last.amb, last.amb);
      assert forall x | x in W[..|W| - 1] :: x in W;
      Concat(WordMakeDistinguished(W[..|W| - 1], g), w)
  }
}

/** Properties of the distinguishing engine. */
module EngineProperties {
  import opened Graphs
  import opened Generators
  import opened Words
  import opened Engine

  /** Canonicalising the inverse of a generator gives the inverse word, for either sign. */
  lemma GenMakeDistinguishedNeg(K: Gen, g: Graph)
    requires EngineInput(K, g)
    ensures EngineInput(Neg(K), g)
    ensures GenMakeDistinguished(Neg(K), g) == Invert(GenMakeDistinguished(K, g))
  {
    NegInvolutive(K);
    if K.inverted {
      InvertInvolutive(GenMakeDistinguished(Neg(K), g));
    }
  }

  /** A distinguished generator, of either sign, is its own canonical word. */
  lemma GenMakeDistinguishedFixedPoint(K: Gen, g: Graph)
    requires EngineInput(K, g)
    requires GenIsDistinguished(K, g)
    ensures GenMakeDistinguished(K, g) == [K]
  {
    if K.inverted {
      DistinguishedIgnoresSign(K, g, false);
      assert Neg(K) == WithSign(K, false);
      InvertReduced([Neg(K)]);
      NegInvolutive(K);
    }
  }

  /** L(max J, J) and its inverse canonicalise to the empty word. */
  lemma GenMakeDistinguishedMaxVertex(K: Gen, g: Graph)
    requires EngineInput(K, g)
    requires K.elem == Max(K.amb)
    ensures GenMakeDistinguished(K, g) == []
  {
    InducedSelf(g);
    ReachableRefl(g, K.elem);
    if K.inverted {
      InvertReduced([]);
    }
  }

  /**
    When i is adjacent to max(J), L(i, J) of either sign canonicalises as
    L(i, J - max(J)) in the graph induced on J - max(J).
  */
  lemma GenMakeDistinguishedEdgeDrop(i: int, J: set<int>, inverted: bool, g: Graph)
    requires EngineInput(L(i, J, inverted), g)
    requires HasEdge(g, i, Max(J))
    ensures var J' := J - {Max(J)};
            && EngineInput(L(i, J', inverted), Induced(g, J'))
            && GenMakeDistinguished(L(i, J, inverted), g)
               == GenMakeDistinguished(L(i, J', inverted), Induced(g, J'))
  {
    var m := Max(J);
    var J' := J - {m};
    InducedSelf(g);
    assert WalkBetween(g, [i, m], i, m);
    assert i != m;
    if inverted {
      GenMakeDistinguishedEdgeDrop(i, J, false, g);
    }
  }

  lemma DistinguishedLetterFixed(x: Gen, g: Graph)
    requires Valid(g) && WellFormed(x) && x.amb <= g.V && GenIsDistinguished(x, g)
    ensures GenMakeDistinguished(x, Induced(g, x.amb)) == [x]
  {
    DistinguishedInduced(x, g, x.amb);
    GenMakeDistinguishedFixedPoint(x, Induced(g, x.amb));
  }

  lemma DistinguishedPrefix(w: Word, g: Graph, n: nat)
    requires Valid(g) && Reduced(w) && AllDistinguished(w, g, g.V) && n <= |w|
    ensures Reduced(w[..n]) && AllDistinguished(w[..n], g, g.V)
  {
    assert forall x | x in w[..n] :: x in w;
  }

  /** One unfolding of WordMakeDistinguished: the prefix, then the last letter. */
  lemma WordMakeDistinguishedLast(w: Word, g: Graph)
    requires Valid(g) && forall x | x in w :: WellFormed(x) && x.amb <= g.V
    requires |w| > 0
    ensures forall x | x in w[..|w| - 1] :: WellFormed(x) && x.amb <= g.V
    ensures WordMakeDistinguished(w, g)
            == Concat(WordMakeDistinguished(w[..|w| - 1], g),
                      GenMakeDistinguished(w[|w| - 1], Induced(g, w[|w| - 1].amb)))
  {
    assert forall x | x in w[..|w| - 1] :: x in w;
  }

  /** A reduced word of distinguished letters is left unchanged by WordMakeDistinguished. */
  lemma {:induction false} WordMakeDistinguishedFixedPoint(w: Word, g: Graph)
    requires Valid(g) && Reduced(w) && AllDistinguished(w, g, g.V)
    ensures WordMakeDistinguished(w, g) == w
    decreases |w|
  {
    if |w| > 0 {
      var n := |w| - 1;
      var prefix := w[..n];
      DistinguishedPrefix(w, g, n);
      WordMakeDistinguishedFixedPoint(prefix, g);
      DistinguishedLetterFixed(w[n], g);
      WordMakeDistinguishedLast(w, g);
      assert prefix + [w[n]] == w;
      ConcatNoCancel(prefix, [w[n]]);
    }
  }

  /** Canonicalising every letter of a canonical word again changes nothing. */
  lemma GenMakeDistinguishedIdempotent(K: Gen, g: Graph)
    requires EngineInput(K, g)
    ensures WordMakeDistinguished(GenMakeDistinguished(K, g), g) == GenMakeDistinguished(K, g)
  {
    WordMakeDistinguishedFixedPoint(GenMakeDistinguished(K, g), g);
  }

  /** WordMakeDistinguished is idempotent. */
  lemma WordMakeDistinguishedIdempotent(W: Word, g: Graph)
    requires Valid(g) && forall x | x in W :: WellFormed(x) && x.amb <= g.V
    ensures WordMakeDistinguished(WordMakeDistinguished(W, g), g) == WordMakeDistinguished(W, g)
  {
    WordMakeDistinguishedFixedPoint(WordMakeDistinguished(W, g), g);
  }

  /** On a one-letter word, WordMakeDistinguished is GenMakeDistinguished in the induced graph. */
  lemma WordMakeDistinguishedSingle(K: Gen, g: Graph)
    requires Valid(g) && WellFormed(K) && K.amb <= g.V
    ensures WordMakeDistinguished([K], g) == GenMakeDistinguished(K, Induced(g, K.amb))
  {
    var w := GenMakeDistinguished(K, Induced(g, K.amb));
    assert [K][..0] == [];
    ConcatNoCancel([], w);
    assert [] + w == w;
  }
}

=== FILE: generators.dfy ===
/**
  The class Gen of lib.py: the Li-Cai generator L(i, J), or its inverse, for a
  vertex i of an ambient vertex set J. Equality is structural, with J compared
  as a set, which is what datatype equality gives.
*/
module Generators {

  /** L(elem, amb) when `inverted` is false, its inverse when it is true. */
  datatype Gen = L(elem: int, amb: set<int>, inverted: bool)

  /** The condition i in J that every generator is meant to satisfy (never checked in lib.py). */
  predicate WellFormed(K: Gen) {
    K.elem in K.amb
  }

  /** The two-argument constructor: a copy of K carrying the sign `inverted`. */
  function WithSign(K: Gen, inverted: bool): (r: Gen)
    ensures r.elem == K.elem && r.amb == K.amb && r.inverted == inverted
    ensures WellFormed(r) <==> WellFormed(K)
    ensures r == K <==> K.inverted == inverted
  {
    L(K.elem, K.amb, inverted)
  }

  /** Gen.__neg__: the same generator with the opposite sign. */
  function Neg(K: Gen): (r: Gen)
    ensures r.elem == K.elem && r.amb == K.amb
    ensures r != K
  {
    WithSign(K, !K.inverted)
  }

  /** Negation is an involution, hence injective. */
  lemma NegInvolutive(K: Gen)
    ensures Neg(Neg(K)) == K
    ensures forall K' :: Neg(K') == Neg(K) ==> K' == K
  {
  }
}

=== FILE: graphs.dfy ===
/**
  The graph queries of lib.py (AreInSameComponent, MinInComponent, FirstStep and
  the induced subgraphs passed around as `graph.subgraph(...)`), defined natively
  on a finite simple undirected graph instead of through networkx.

  Components and distances are computed by breadth-first layers (`Ball`), and
  every query is tied back to a walk-based reference definition (`Reachable`,
  `ReachableWithin`).
*/
module Graphs {
  import opened Wrappers

  /** A graph on the vertex set V; every edge is stored in both orientations. */
  datatype Graph = Graph(V: set<int>, E: set<(int, int)>)

  /** Simple undirected graph: edges join distinct vertices of V, and E is symmetric. */
  predicate Valid(g: Graph) {
    forall e | e in g.E :: e.0 in g.V && e.1 in g.V && e.0 != e.1 && (e.1, e.0) in g.E
  }

  /** networkx's `has_edge`. */
  predicate HasEdge(g: Graph, a: int, b: int) {
    (a, b) in g.E
  }

  /** networkx's `subgraph(S)`: the vertices of S that are in g, with every edge of g among them. */
  function Induced(g: Graph, S: set<int>): (h: Graph)
    ensures h.V == g.V * S
    ensures Valid(g) ==> Valid(h)
  {
    Graph(g.V * S, set e | e in g.E && e.0 in S && e.1 in S)
  }

  lemma InducedEdge(g: Graph, S: set<int>, a: int, b: int)
    ensures HasEdge(Induced(g, S), a, b) <==> HasEdge(g, a, b) && a in S && b in S
  {
  }

  /** Restricting twice is restricting once to the smaller set. */
  lemma InducedTwice(g: Graph, S: set<int>, T: set<int>)
    requires T <= S
    ensures Induced(Induced(g, S), T) == Induced(g, T)
  {
  }

  /** A valid graph restricted to its own vertices is itself. */
  lemma InducedSelf(g: Graph)
    requires Valid(g)
    ensures Induced(g, g.V) == g
  {
    assert Induced(g, g.V).E == g.E;
  }

  // ---------------------------------------------------------------------------
  // Minimum and maximum of a finite non-empty set of vertices
  // ---------------------------------------------------------------------------

  lemma PickOne(s: set<int>) returns (y: int)
    requires s != {}
    ensures y in s
  {
    if forall x :: x !in s {
      assert false;
    }
    y :| y in s;
  }

  lemma MinExists(s: set<int>)
    requires s != {}
    ensures exists m :: m in s && forall x | x in s :: m <= x
  {
    var y := PickOne(s);
    if s != {y} {
      MinExists(s - {y});
      var m :| m in s - {y} && forall x | x in s - {y} :: m <= x;
      var r := if y < m then y else m;
      forall x | x in s
        ensures r <= x
      {
        if x != y {
          assert x in s - {y};
        }
      }
    } else {
      assert forall x | x in s :: y <= x;
    }
  }

  lemma MaxExists(s: set<int>)
    requires s != {}
    ensures exists m :: m in s && forall x | x in s :: x <= m
  {
    var y := PickOne(s);
    if s != {y} {
      MaxExists(s - {y});
      var m :| m in s - {y} && forall x | x in s - {y} :: x <= m;
      var r := if y > m then y else m;
      forall x | x in s
        ensures x <= r
      {
        if x != y {
          assert x in s - {y};
        }
      }
    } else {
      assert forall x | x in s :: x <= y;
    }
  }

  /** Python's `min` on a set of integers. */
  function Min(s: set<int>): (m: int)
    requires s != {}
    ensures m in s && forall x | x in s :: m <= x
  {
    MinExists(s);
    var m :| m in s && forall x | x in s :: m <= x; m
  }

  /** Python's `max` on a set of integers. */
  function Max(s: set<int>): (m: int)
    requires s != {}
    ensures m in s && forall x | x in s :: x <= m
  {
    MaxExists(s);
    var m :| m in s && forall x | x in s :: x <= m; m
  }

  // ---------------------------------------------------------------------------
  // Walks: the reference definition of connectivity and distance
  // ---------------------------------------------------------------------------

  /** A walk: a non-empty vertex sequence whose consecutive vertices are adjacent. */
  ghost predicate IsWalk(g: Graph, p: seq<int>) {
    && |p| >= 1
    && p[0] in g.V
    && forall k | 0 <= k < |p| - 1 :: HasEdge(g, p[k], p[k + 1])
  }

  ghost predicate WalkBetween(g: Graph, p: seq<int>, a: int, b: int) {
    IsWalk(g, p) && p[0] == a && p[|p| - 1] == b
  }

  /** b can be reached from a along edges of g. */
  ghost predicate Reachable(g: Graph, a: int, b: int) {
    exists p :: WalkBetween(g, p, a, b)
  }

  /** b can be reached from a in at most k steps. */
  ghost predicate ReachableWithin(g: Graph, a: int, b: int, k: nat) {
    exists p :: WalkBetween(g, p, a, b) && |p| <= k + 1
  }

  // ---------------------------------------------------------------------------
  // Breadth-first layers
  // ---------------------------------------------------------------------------

  /** The vertices adjacent to some vertex of S. */
  function Neighbours(g: Graph, S: set<int>): set<int> {
    set e | e in g.E && e.0 in S :: e.1
  }

  /** The vertices at distance at most k from i. */
  function Ball(g: Graph, i: int, k: nat): set<int> {
    if k == 0 then {i} else Ball(g, i, k - 1) + Neighbours(g, Ball(g, i, k - 1))
  }

  lemma {:induction false} BallInV(g: Graph, i: int, k: nat)
    requires Valid(g) && i in g.V
    ensures Ball(g, i, k) <= g.V
  {
    if k > 0 {
      BallInV(g, i, k - 1);
    }
  }

  lemma {:induction false} BallMono(g: Graph, i: int, k: nat, m: nat)
    requires k <= m
    ensures Ball(g, i, k) <= Ball(g, i, m)
    decreases m - k
  {
    if k < m {
      BallMono(g, i, k, m - 1);
    }
  }

  /** Equal layers have equal successors. */
  lemma BallStep(g: Graph, i: int, a: nat, b: nat)
    requires Ball(g, i, a) == Ball(g, i, b)
    ensures Ball(g, i, a + 1) == Ball(g, i, b + 1)
  {
    assert Ball(g, i, a + 1) == Ball(g, i, a) + Neighbours(g, Ball(g, i, a));
    assert Ball(g, i, b + 1) == Ball(g, i, b) + Neighbours(g, Ball(g, i, b));
  }

  /** Once a layer adds nothing, no later layer does. */
  lemma BallStaysStable(g: Graph, i: int, k: nat, m: nat)
    requires k <= m
    requires Ball(g, i, k) == Ball(g, i, k + 1)
    ensures Ball(g, i, m) == Ball(g, i, k)
  {
    var j := k;
    while j < m
      invariant k <= j <= m
      invariant Ball(g, i, j) == Ball(g, i, k)
    {
      BallStep(g, i, j, k);
      j := j + 1;
    }
  }

  lemma SubsetCard(A: set<int>, B: set<int>)
    requires A <= B
    ensures |B| == |A| + |B - A|
  {
    assert B == A + (B - A);
    assert A * (B - A) == {};
  }

  lemma StrictSubsetCard(A: set<int>, B: set<int>)
    requires A <= B && A != B
    ensures |B| >= |A| + 1
  {
    SubsetCard(A, B);
    assert B - A != {} by {
      if B - A == {} {
        assert false;
      }
    }
  }

  /** Until the layers stabilise, layer k has at least k + 1 vertices. */
  lemma {:induction false} BallGrows(g: Graph, i: int, k: nat)
    requires Ball(g, i, k) != Ball(g, i, k + 1)
    ensures |Ball(g, i, k + 1)| >= k + 2
  {
    BallMono(g, i, k, k + 1);
    StrictSubsetCard(Ball(g, i, k), Ball(g, i, k + 1));
    if k == 0 {
      assert |Ball(g, i, 0)| == 1;
    } else {
      if Ball(g, i, k - 1) == Ball(g, i, k) {
        assert false;
      }
      BallGrows(g, i, k - 1);
    }
  }

  /** Every layer is contained in layer |V| - 1. */
  lemma BallBounded(g: Graph, i: int, k: nat)
    requires Valid(g) && i in g.V
    ensures Ball(g, i, k) <= Ball(g, i, |g.V| - 1)
    ensures Ball(g, i, |g.V|) == Ball(g, i, |g.V| - 1)
  {
    var n := |g.V| - 1;
    if Ball(g, i, n) != Ball(g, i, n + 1) {
      BallGrows(g, i, n);
      BallInV(g, i, n + 1);
      SubsetCard(Ball(g, i, n + 1), g.V);
      assert false;
    }
    if k <= n {
      BallMono(g, i, k, n);
    } else {
      BallStaysStable(g, i, n, k);
    }
  }

  lemma {:induction false} BallToWalk(g: Graph, i: int, x: int, k: nat)
    requires Valid(g) && i in g.V
    requires x in Ball(g, i, k)
    ensures ReachableWithin(g, i, x, k)
    decreases k
  {
    if k == 0 {
      assert WalkBetween(g, [i], i, x);
    } else if x in Ball(g, i, k - 1) {
      BallToWalk(g, i, x, k - 1);
      var p :| WalkBetween(g, p, i, x) && |p| <= k;
      assert WalkBetween(g, p, i, x) && |p| <= k + 1;
    } else {
      var e :| e in g.E && e.0 in Ball(g, i, k - 1) && e.1 == x;
      BallToWalk(g, i, e.0, k - 1);
      var p :| WalkBetween(g, p, i, e.0) && |p| <= k;
      var q := p + [x];
      assert WalkBetween(g, q, i, x);
    }
  }

  lemma {:induction false} WalkToBall(g: Graph, p: seq<int>, i: int, x: int)
    requires WalkBetween(g, p, i, x)
    ensures x in Ball(g, i, |p| - 1)
  {
    if |p| > 1 {
      var q := p[..|p| - 1];
      assert WalkBetween(g, q, i, q[|q| - 1]);
      WalkToBall(g, q, i, q[|q| - 1]);
      assert (q[|q| - 1], x) in g.E;
    }
  }

  /** Membership in layer k is reachability within k steps. */
  lemma BallIsReachableWithin(g: Graph, i: int, x: int, k: nat)
    requires Valid(g) && i in g.V
    ensures x in Ball(g, i, k) <==> ReachableWithin(g, i, x, k)
  {
    if x in Ball(g, i, k) {
      BallToWalk(g, i, x, k);
    }
    if ReachableWithin(g, i, x, k) {
      var p :| WalkBetween(g, p, i, x) && |p| <= k + 1;
      WalkToBall(g, p, i, x);
      BallMono(g, i, |p| - 1, k);
    }
  }

  // ---------------------------------------------------------------------------
  // Connected components
  // ---------------------------------------------------------------------------

  /** networkx's `node_connected_component(g, i)`. */
  function Component(g: Graph, i: int): set<int> {
    Ball(g, i, |g.V|)
  }

  /** The component of i is exactly the set of vertices reachable from i. */
  lemma ComponentIsReachable(g: Graph, i: int, x: int)
    requires Valid(g) && i in g.V
    ensures x in Component(g, i) <==> Reachable(g, i, x)
  {
    if x in Component(g, i) {
      BallToWalk(g, i, x, |g.V|);
    }
    if Reachable(g, i, x) {
      var p :| WalkBetween(g, p, i, x);
      WalkToBall(g, p, i, x);
      BallBounded(g, i, |p| - 1);
    }
  }

  lemma ComponentInV(g: Graph, i: int)
    requires Valid(g) && i in g.V
    ensures i in Component(g, i) && Component(g, i) <= g.V
  {
    BallMono(g, i, 0, |g.V|);
    BallInV(g, i, |g.V|);
  }

  lemma ReachableRefl(g: Graph, i: int)
    requires i in g.V
    ensures Reachable(g, i, i)
  {
    assert WalkBetween(g, [i], i, i);
  }

  lemma ReachableSymmetric(g: Graph, a: int, b: int)
    requires Valid(g)
    requires Reachable(g, a, b)
    ensures Reachable(g, b, a)
  {
    var p :| WalkBetween(g, p, a, b);
    var q := seq(|p|, k requires 0 <= k < |p| => p[|p| - 1 - k]);
    forall k | 0 <= k < |q| - 1
      ensures HasEdge(g, q[k], q[k + 1])
    {
      assert (q[k + 1], q[k]) in g.E;
    }
    if |p| > 1 {
      assert (p[|p| - 2], p[|p| - 1]) in g.E;
    }
    assert WalkBetween(g, q, b, a);
  }

  lemma ReachableTransitive(g: Graph, a: int, b: int, c: int)
    requires Reachable(g, a, b) && Reachable(g, b, c)
    ensures Reachable(g, a, c)
  {
    var p :| WalkBetween(g, p, a, b);
    var q :| WalkBetween(g, q, b, c);
    var r := p + q[1..];
    forall k | 0 <= k < |r| - 1
      ensures HasEdge(g, r[k], r[k + 1])
    {
      if k < |p| - 1 {
      } else {
        assert r[k] == q[k - |p| + 1];
      }
    }
    assert WalkBetween(g, r, a, c);
  }

  /** Vertices of one component share that component. */
  lemma SameComponent(g: Graph, i: int, j: int)
    requires Valid(g) && i in g.V
    requires j in Component(g, i)
    ensures j in g.V
    ensures Component(g, j) == Component(g, i)
  {
    ComponentInV(g, i);
    ComponentIsReachable(g, i, j);
    ReachableSymmetric(g, i, j);
    forall x | x in Component(g, j)
      ensures x in Component(g, i)
    {
      ComponentIsReachable(g, j, x);
      ReachableTransitive(g, i, j, x);
      ComponentIsReachable(g, i, x);
    }
    forall x | x in Component(g, i)
      ensures x in Component(g, j)
    {
      ComponentIsReachable(g, i, x);
      ReachableTransitive(g, j, i, x);
      ComponentIsReachable(g, j, x);
    }
  }

  /** lib.py AreInSameComponent. */
  function AreInSameComponent(i: int, j: int, g: Graph): (r: bool)
    requires Valid(g) && i in g.V
    ensures r <==> Reachable(g, i, j)
  {
    ComponentIsReachable(g, i, j);
    j in Component(g, i)
  }

  /** lib.py MinInComponent. */
  function MinInComponent(i: int, g: Graph): (r: int)
    requires Valid(g) && i in g.V
    ensures Reachable(g, i, r)
    ensures forall x | Reachable(g, i, x) :: r <= x
  {
    ComponentInV(g, i);
    var m := Min(Component(g, i));
    ComponentIsReachable(g, i, m);
    forall x | Reachable(g, i, x)
      ensures m <= x
    {
      ComponentIsReachable(g, i, x);
    }
    m
  }

  // ---------------------------------------------------------------------------
  // Distances and the first step of a shortest path
  // ---------------------------------------------------------------------------

  function DistFrom(g: Graph, i: int, j: int, k: nat): (d: nat)
    requires k <= |g.V| && j in Ball(g, i, |g.V|)
    requires forall m: nat | m < k :: j !in Ball(g, i, m)
    ensures k <= d <= |g.V| && j in Ball(g, i, d)
    ensures forall m: nat | m < d :: j !in Ball(g, i, m)
    decreases |g.V| - k
  {
    if j in Ball(g, i, k) then k else DistFrom(g, i, j, k + 1)
  }

  /** The length of a shortest path from i to j (j in the component of i). */
  function Dist(g: Graph, i: int, j: int): (d: nat)
    requires Valid(g) && i in g.V && j in Component(g, i)
    ensures d < |g.V|
    ensures j in Ball(g, i, d)
    ensures forall m: nat | m < d :: j !in Ball(g, i, m)
  {
    BallBounded(g, i, 0);
    DistFrom(g, i, j, 0)
  }

  /** Dist is the number of steps of a shortest walk. */
  lemma DistIsShortestWalk(g: Graph, i: int, j: int)
    requires Valid(g) && i in g.V && j in Component(g, i)
    ensures ReachableWithin(g, i, j, Dist(g, i, j))
    ensures forall p | WalkBetween(g, p, i, j) :: |p| >= Dist(g, i, j) + 1
  {
    BallIsReachableWithin(g, i, j, Dist(g, i, j));
    forall p | WalkBetween(g, p, i, j)
      ensures |p| >= Dist(g, i, j) + 1
    {
      WalkToBall(g, p, i, j);
    }
  }

  lemma DistAtMost(g: Graph, i: int, j: int, k: nat)
    requires Valid(g) && i in g.V && j in Component(g, i)
    requires ReachableWithin(g, i, j, k)
    ensures Dist(g, i, j) <= k
  {
    BallIsReachableWithin(g, i, j, k);
  }

  /** The neighbours of i that are one step closer to j than i is. */
  function GeodesicNeighbours(g: Graph, i: int, j: int): set<int>
    requires Valid(g) && i in g.V && j in Component(g, i)
  {
    set n | n in g.V && HasEdge(g, i, n) && j in Component(g, n)
            && Dist(g, n, j) == Dist(g, i, j) - 1
  }

  /** Some neighbour of i is one step closer to j. */
  lemma FirstStepExists(g: Graph, i: int, j: int)
    requires Valid(g) && i in g.V && j in Component(g, i) && i != j
    ensures GeodesicNeighbours(g, i, j) != {}
  {
    var d := Dist(g, i, j);
    assert d != 0;
    BallIsReachableWithin(g, i, j, d);
    var p :| WalkBetween(g, p, i, j) && |p| <= d + 1;
    var n := p[1];
    assert (i, n) in g.E;
    var q := p[1..];
    assert WalkBetween(g, q, n, j);
    SameComponent(g, i, n) by {
      BallMono(g, i, 1, |g.V|);
    }
    BallIsReachableWithin(g, n, j, d - 1);
    DistAtMost(g, n, j, d - 1);
    var d' := Dist(g, n, j);
    BallIsReachableWithin(g, n, j, d');
    var r :| WalkBetween(g, r, n, j) && |r| <= d' + 1;
    var r' := [i] + r;
    assert WalkBetween(g, r', i, j);
    DistAtMost(g, i, j, d' + 1);
    assert n in GeodesicNeighbours(g, i, j);
  }

  datatype PathError = NoPath | NoStep

  /**
    lib.py FirstStep: the second vertex of a shortest path from i to j.
    NoPath when j is not reachable (networkx raises), NoStep when i == j (the
    path [i] has no second vertex). Among several geodesic neighbours the
    least one is chosen.
  */
  function FirstStep(i: int, j: int, g: Graph): (r: Result<int, PathError>)
    requires Valid(g) && i in g.V
    ensures r.Success? <==> Reachable(g, i, j) && i != j
    ensures r == Failure(NoPath) <==> !Reachable(g, i, j)
    ensures r.Success? ==> && r.value in g.V && HasEdge(g, i, r.value)
                           && j in Component(g, i) && j in Component(g, r.value)
                           && Dist(g, r.value, j) == Dist(g, i, j) - 1
  {
    ComponentIsReachable(g, i, j);
    if j !in Component(g, i) then Failure(NoPath)
    else if i == j then Failure(NoStep)
    else
      FirstStepExists(g, i, j);
      Success(Min(GeodesicNeighbours(g, i, j)))
  }
}

=== FILE: relations.dfy ===
/**
  The relation builder of lib.py: PathRelation spells the raw relation
  R((c0, ..., c(k-1), c0), J) of a closed walk, and ReducedPathRelation rewrites it
  into distinguished generators.
*/
module Relations {
  import opened Graphs
  import opened Generators
  import opened Words
  import opened Engine
  import opened EngineProperties

  /** The walk closed up: `path + [path[0]]`. */
  function Cycle(path: seq<int>): (c: seq<int>)
    requires |path| > 0
    ensures |c| == |path| + 1 && c[|path|] == path[0]
    ensures forall k | 0 <= k < |path| :: c[k] == path[k]
  {
    path + [path[0]]
  }

  /**
    The letters PathRelation appends, in order: for each step c -> c' of the
    closed walk, L(c', J - c) and then L(c, J - c')^-1.
  */
  function PathLetters(path: seq<int>, J: set<int>): (r: seq<Gen>)
    requires |path| > 0
    ensures |r| == 2 * |path|
  {
    var c := Cycle(path);
    seq(2 * |path|, t requires 0 <= t < 2 * |path| =>
      if t % 2 == 0 then L(c[t / 2 + 1], J - {c[t / 2]}, false)
      else L(c[t / 2], J - {c[t / 2 + 1]}, true))
  }

  /** The vertices of the walk are pairwise distinct and lie in J. */
  predicate SimpleWalkIn(path: seq<int>, J: set<int>) {
    && (forall k | 0 <= k < |path| :: path[k] in J)
    && (forall a, b | 0 <= a < b < |path| :: path[a] != path[b])
  }

  /**
    The closed walk stays in J and never stays put: consecutive vertices,
    the last and the first included, differ (a single vertex is allowed).
  */
  predicate ClosedWalkIn(path: seq<int>, J: set<int>) {
    && (forall k | 0 <= k < |path| :: path[k] in J)
    && (forall k | 0 <= k < |path| - 1 :: path[k] != path[k + 1])
    && (|path| >= 2 ==> path[|path| - 1] != path[0])
  }

  /** A walk of distinct vertices in J is such a closed walk. */
  lemma SimpleWalkIsClosedWalk(path: seq<int>, J: set<int>)
    requires SimpleWalkIn(path, J)
    ensures ClosedWalkIn(path, J)
  {
  }

  /** lib.py PathRelation: the letters above, appended one by one with cancellation. */
  function PathRelation(path: seq<int>, J: set<int>): (r: Word)
    requires |path| > 0
    ensures Reduced(r)
  {
    LTW(PathLetters(path, J))
  }

  /** Each step c -> c' of such a walk gives well-formed letters L(c', J - c) and L(c, J - c')^-1. */
  lemma PathLettersWellFormed(path: seq<int>, J: set<int>)
    requires |path| >= 2 && ClosedWalkIn(path, J)
    ensures forall x | x in PathLetters(path, J) :: WellFormed(x) && x.amb <= J
  {
    var r := PathLetters(path, J);
    var c := Cycle(path);
    forall t | 0 <= t < |r|
      ensures WellFormed(r[t]) && r[t].amb <= J
    {
      var i := t / 2;
      if i + 1 < |path| {
        assert c[i] != c[i + 1];
      } else {
        assert c[i + 1] == path[0];
      }
    }
  }

  /** For a walk of three or more distinct vertices, no cancellation fires: 2k letters. */
  lemma PathRelationLength(path: seq<int>, J: set<int>)
    requires |path| >= 3 && SimpleWalkIn(path, J)
    ensures PathRelation(path, J) == PathLetters(path, J)
    ensures |PathRelation(path, J)| == 2 * |path|
  {
    var r := PathLetters(path, J);
    var c := Cycle(path);
    var l := |path|;
    forall t | 0 <= t < |r| - 1
      ensures r[t + 1] != Neg(r[t])
    {
      var i := t / 2;
      if t % 2 == 0 {
        // L(c[i], J - c[i+1])^-1 after L(c[i+1], J - c[i]): they share no vertex i.
        assert (t + 1) / 2 == i;
        assert c[i] != c[i + 1] by {
          if i + 1 == l {
            assert c[i + 1] == path[0];
          }
        }
      } else {
        // L(c[i+2], J - c[i+1]) after L(c[i], J - c[i+1])^-1: c[i] and c[i+2] differ.
        assert (t + 1) / 2 == i + 1;
        assert i + 1 < l;
        assert c[i] != c[i + 2] by {
          if i + 2 == l {
            assert c[i + 2] == path[0];
            assert i != 0;
          }
        }
      }
    }
    LTWReduced(r);
  }

  /** Letters that are a reduced word followed by its inverse reduce to the empty word. */
  lemma CancelsToEmpty(s: Word, r: seq<Gen>)
    requires Reduced(s) && r == s + RevNeg(s)
    ensures LTW(r) == []
  {
    ConcatSplit([], s, RevNeg(s));
    ConcatNoCancel([], s);
    assert [] + s == s;
    ConcatCancelsSuffix([], s);
  }

  /** For a single vertex the two (ill-formed) letters cancel each other. */
  lemma PathRelationSingle(path: seq<int>, J: set<int>)
    requires |path| == 1
    ensures PathRelation(path, J) == []
  {
    var a := path[0];
    var A := L(a, J - {a}, false);
    assert PathLetters(path, J) == [A] + RevNeg([A]);
    CancelsToEmpty([A], PathLetters(path, J));
  }

  /** For two distinct vertices the relation cancels to the empty word. */
  lemma PathRelationDigon(path: seq<int>, J: set<int>)
    requires |path| == 2 && path[0] != path[1]
    ensures PathRelation(path, J) == []
  {
    var a, b := path[0], path[1];
    var A, B := L(b, J - {a}, false), L(a, J - {b}, true);
    assert PathLetters(path, J) == [A, B] + RevNeg([A, B]);
    CancelsToEmpty([A, B], PathLetters(path, J));
  }

  /** The vertices of the walk lie in J; the walk may stay put at a vertex. */
  predicate WalkIn(path: seq<int>, J: set<int>) {
    forall k | 0 <= k < |path| :: path[k] in J
  }

  /** The walk with the vertex at position k + 1 removed, so a step c -> c becomes no step. */
  function DropVertex(path: seq<int>, k: nat): (p: seq<int>)
    requires k + 1 < |path|
    ensures |p| == |path| - 1
    ensures forall i | 0 <= i < |p| :: p[i] == if i <= k then path[i] else path[i + 1]
  {
    path[..k + 1] + path[k + 2..]
  }

  /** Closing the shorter walk visits the vertices of the longer one with step k skipped. */
  lemma CycleDropVertex(path: seq<int>, k: nat)
    requires k + 1 < |path|
    ensures forall i | 0 <= i <= |path| - 1 ::
      Cycle(DropVertex(path, k))[i] == if i <= k then Cycle(path)[i] else Cycle(path)[i + 1]
  {
  }

  /** Dropping the repeated vertex of a step c -> c deletes exactly that step's two letters. */
  lemma DropVertexLetters(path: seq<int>, J: set<int>, k: nat)
    requires k + 1 < |path| && path[k] == path[k + 1]
    ensures PathLetters(DropVertex(path, k), J) == PathLetters(path, J)[..2 * k] + PathLetters(path, J)[2 * k + 2..]
  {
    var P, P' := PathLetters(path, J), PathLetters(DropVertex(path, k), J);
    forall t | 0 <= t < |P'|
      ensures P'[t] == if t < 2 * k then P[t] else P[t + 2]
    {
      DropVertexLetterAt(path, J, k, t);
    }
  }

  /** Letter t of the shorter walk is letter t, or t + 2 past the dropped step, of the longer one. */
  lemma DropVertexLetterAt(path: seq<int>, J: set<int>, k: nat, t: nat)
    requires k + 1 < |path| && path[k] == path[k + 1] && t < 2 * (|path| - 1)
    ensures PathLetters(DropVertex(path, k), J)[t] == PathLetters(path, J)[if t < 2 * k then t else t + 2]
  {
    var c, c' := Cycle(path), Cycle(DropVertex(path, k));
    var i := t / 2;
    CycleDropVertex(path, k);
    if t < 2 * k {
      assert c'[i] == c[i] && c'[i + 1] == c[i + 1];
    } else {
      assert (t + 2) / 2 == i + 1 && (t + 2) % 2 == t % 2;
      assert c'[i] == c[i + 1] && c'[i + 1] == c[i + 2];
    }
  }

  /**
    A step c -> c contributes L(c, J - c) and at once its inverse, which AddLetter
    cancels: the relation is that of the walk with the repeated vertex removed.
  */
  lemma StationaryStepCollapses(path: seq<int>, J: set<int>, k: nat)
    requires k + 1 < |path| && path[k] == path[k + 1]
    ensures PathRelation(path, J) == PathRelation(DropVertex(path, k), J)
  {
    var P := PathLetters(path, J);
    var x := L(path[k], J - {path[k]}, false);
    assert P[2 * k] == x && P[2 * k + 1] == Neg(x);
    assert P == P[..2 * k] + [x, Neg(x)] + P[2 * k + 2..];
    DropVertexLetters(path, J, k);
    PairVanishes(P[..2 * k], x, P[2 * k + 2..]);
  }

  /** A closing step c -> c (last vertex equal to the first) cancels the same way. */
  lemma ClosingStepCollapses(path: seq<int>, J: set<int>)
    requires |path| >= 2 && path[|path| - 1] == path[0]
    ensures PathRelation(path, J) == PathRelation(path[..|path| - 1], J)
  {
    var n := |path| - 1;
    var P, P' := PathLetters(path, J), PathLetters(path[..n], J);
    var x := L(path[0], J - {path[0]}, false);
    assert Cycle(path[..n])[n] == Cycle(path)[n];
    assert P == P' + [x, Neg(x)] + [] by {
      forall t | 0 <= t < 2 * n
        ensures P[t] == P'[t]
      {
        assert Cycle(path[..n])[t / 2] == Cycle(path)[t / 2];
        assert Cycle(path[..n])[t / 2 + 1] == Cycle(path)[t / 2 + 1];
      }
      assert P[2 * n] == x && P[2 * n + 1] == Neg(x);
    }
    PairVanishes(P', x, []);
    assert P' + [] == P';
  }

  /**
    Every letter of the relation of a walk in J is well formed over a subset of J:
    the ill-formed letters of a step c -> c always cancel.
  */
  lemma {:induction false} PathRelationWellFormed(path: seq<int>, J: set<int>)
    requires |path| > 0 && WalkIn(path, J)
    ensures forall x | x in PathRelation(path, J) :: WellFormed(x) && x.amb <= J
    decreases |path|
  {
    if |path| == 1 {
      PathRelationSingle(path, J);
    } else if k :| 0 <= k < |path| - 1 && path[k] == path[k + 1] {
      StationaryStepCollapses(path, J, k);
      WalkInDrop(path, J, k);
      PathRelationWellFormed(DropVertex(path, k), J);
    } else if path[|path| - 1] == path[0] {
      ClosingStepCollapses(path, J);
      PathRelationWellFormed(path[..|path| - 1], J);
    } else {
      PathLettersWellFormed(path, J);
    }
  }

  lemma WalkInDrop(path: seq<int>, J: set<int>, k: nat)
    requires k + 1 < |path| && WalkIn(path, J)
    ensures WalkIn(DropVertex(path, k), J)
  {
  }

  /**
    lib.py ReducedPathRelation: the relation of the closed walk rewritten in
    distinguished generators of the graph induced on J.
  */
  function ReducedPathRelation(G: Graph, path: seq<int>, J: set<int>): (r: Word)
    requires Valid(G) && J <= G.V
    requires |path| > 0 && WalkIn(path, J)
    ensures Reduced(r)
    ensures AllDistinguished(r, G, J)
  {
    PathRelationWellFormed(path, J);
    var w := WordMakeDistinguished(PathRelation(path, J), Induced(G, J));
    LiftDistinguished(w, G, J, J);
    w
  }

  /** A stationary step leaves the distinguished relation unchanged as well. */
  lemma ReducedPathRelationCollapses(G: Graph, path: seq<int>, J: set<int>, k: nat)
    requires Valid(G) && J <= G.V
    requires k + 1 < |path| && path[k] == path[k + 1] && WalkIn(path, J)
    ensures WalkIn(DropVertex(path, k), J)
    ensures ReducedPathRelation(G, path, J) == ReducedPathRelation(G, DropVertex(path, k), J)
  {
    StationaryStepCollapses(path, J, k);
  }

  /** When the raw relation already consists of distinguished generators, it is returned unchanged. */
  lemma ReducedPathRelationFixed(G: Graph, path: seq<int>, J: set<int>)
    requires Valid(G) && J <= G.V
    requires |path| > 0 && WalkIn(path, J)
    requires AllDistinguished(PathRelation(path, J), Induced(G, J), J)
    ensures ReducedPathRelation(G, path, J) == PathRelation(path, J)
  {
    WordMakeDistinguishedFixedPoint(PathRelation(path, J), Induced(G, J));
  }
}

=== FILE: simplify.dfy ===
/**
  lib.py SimplifyStr and IsARelation. A word of L-generators is spelled over
  the Coxeter generators (one character per vertex) and then shortened by
  cancelling two equal characters whose vertices are separated only by
  neighbours: in the right-angled Coxeter group such a pair commutes past
  everything in between and squares to the identity.
*/
module Simplify {
  import opened Wrappers
  import opened Graphs
  import opened Generators
  import opened Words
  import opened Encoding

  /** graph.has_edge(chartoint(c), chartoint(d)): the generators spelled c and d commute. */
  predicate Commutes(g: Graph, c: CodePoint, d: CodePoint) {
    HasEdge(g, CharToInt(c), CharToInt(d))
  }

  /** s[i] and s[p] are equal and every character strictly between them commutes with s[i]. */
  predicate CancellablePair(s: Str, i: int, p: int, g: Graph) {
    0 <= i < p < |s| && s[i] == s[p] &&
    forall k | i < k < p :: Commutes(g, s[i], s[k])
  }

  /** s with the characters at positions i and p removed. */
  function Cancel(s: Str, i: int, p: int): (r: Str)
    requires 0 <= i < p < |s|
    ensures |r| == |s| - 2
  {
    s[..i] + s[i + 1..p] + s[p + 1..]
  }

  /** Cancelling removes exactly the two cancelled characters. */
  lemma CancelMultiset(s: Str, i: int, p: int)
    requires 0 <= i < p < |s|
    ensures multiset(Cancel(s, i, p)) + multiset{s[i], s[p]} == multiset(s)
  {
    assert s == s[..i] + [s[i]] + s[i + 1..p] + [s[p]] + s[p + 1..];
  }

  /** No two characters of s can be cancelled against each other. */
  predicate Irreducible(s: Str, g: Graph) {
    forall i, p | 0 <= i < p < |s| :: !CancellablePair(s, i, p, g)
  }

  /**
    steps lists, in order, the position pairs cancelled on the way from s
    to t, each a cancellable pair of the string at that moment.
  */
  ghost predicate ReducesVia(s: Str, t: Str, steps: seq<(int, int)>, g: Graph)
    decreases |steps|
  {
    if steps == [] then s == t
    else
      CancellablePair(s, steps[0].0, steps[0].1, g) &&
      ReducesVia(Cancel(s, steps[0].0, steps[0].1), t, steps[1..], g)
  }

  /**
    The reference definition of simplification: t is reached from s by a
    sequence of cancellations, each of one cancellable pair.
  */
  ghost predicate ReducesTo(s: Str, t: Str, g: Graph) {
    exists steps :: ReducesVia(s, t, steps, g)
  }

  lemma ReducesToRefl(s: Str, g: Graph)
    ensures ReducesTo(s, s, g)
  {
    assert ReducesVia(s, s, [], g);
  }

  /** One cancellation is a simplification. */
  lemma ReducesToCancel(s: Str, i: int, p: int, g: Graph)
    requires CancellablePair(s, i, p, g)
    ensures ReducesTo(s, Cancel(s, i, p), g)
  {
    assert ReducesVia(Cancel(s, i, p), Cancel(s, i, p), [], g);
    assert [(i, p)][1..] == [];
    assert ReducesVia(s, Cancel(s, i, p), [(i, p)], g);
  }

  lemma {:induction false} ReducesViaTrans(s: Str, t: Str, u: Str, st: seq<(int, int)>, tu: seq<(int, int)>, g: Graph)
    requires ReducesVia(s, t, st, g) && ReducesVia(t, u, tu, g)
    ensures ReducesVia(s, u, st + tu, g)
    decreases |st|
  {
    if st != [] {
      assert (st + tu)[0] == st[0];
      assert (st + tu)[1..] == st[1..] + tu;
      ReducesViaTrans(Cancel(s, st[0].0, st[0].1), t, u, st[1..], tu, g);
    } else {
      assert st + tu == tu;
    }
  }

  /** Simplification composes. */
  lemma ReducesToTrans(s: Str, t: Str, u: Str, g: Graph)
    requires ReducesTo(s, t, g) && ReducesTo(t, u, g)
    ensures ReducesTo(s, u, g)
  {
    var st :| ReducesVia(s, t, st, g);
    var tu :| ReducesVia(t, u, tu, g);
    ReducesViaTrans(s, t, u, st, tu, g);
  }

  /** Each cancellation removes two characters and adds none. */
  lemma {:induction false} ReducesViaShrinks(s: Str, t: Str, steps: seq<(int, int)>, g: Graph)
    requires ReducesVia(s, t, steps, g)
    ensures |t| == |s| - 2 * |steps|
    ensures multiset(t) <= multiset(s)
    decreases |steps|
  {
    if steps != [] {
      CancelMultiset(s, steps[0].0, steps[0].1);
      ReducesViaShrinks(Cancel(s, steps[0].0, steps[0].1), t, steps[1..], g);
    }
  }

  /**
    Simplification only removes characters, two at a time: the result is no
    longer, of the same parity, and a sub-multiset of the input.
  */
  lemma ReducesToShrinks(s: Str, t: Str, g: Graph)
    requires ReducesTo(s, t, g)
    ensures |t| <= |s| && (|s| - |t|) % 2 == 0
    ensures multiset(t) <= multiset(s)
  {
    var steps: seq<(int, int)> :| ReducesVia(s, t, steps, g);
    ReducesViaShrinks(s, t, steps, g);
  }

  /** f lists, in increasing order, positions of s that spell t. */
  ghost predicate Embeds(t: Str, s: Str, f: seq<int>) {
    |f| == |t| &&
    (forall k | 0 <= k < |f| :: 0 <= f[k] < |s| && s[f[k]] == t[k]) &&
    (forall k, l | 0 <= k < l < |f| :: f[k] < f[l])
  }

  /** t is a subsequence of s. */
  ghost predicate Subsequence(t: Str, s: Str) {
    exists f :: Embeds(t, s, f)
  }

  /** The positions of s that survive the cancellation of i and p. */
  lemma CancelEmbeds(s: Str, i: int, p: int) returns (f: seq<int>)
    requires 0 <= i < p < |s|
    ensures Embeds(Cancel(s, i, p), s, f)
  {
    var c := Cancel(s, i, p);
    f := seq(|c|, k requires 0 <= k < |c| => if k < i then k else if k < p - 1 then k + 1 else k + 2);
    forall k | 0 <= k < |f|
      ensures 0 <= f[k] < |s| && s[f[k]] == c[k]
    {
      assert c == s[..i] + s[i + 1..p] + s[p + 1..];
      if k < i {
      } else if k < p - 1 {
        assert c[k] == s[i + 1..p][k - i];
      } else {
        assert c[k] == s[p + 1..][k - (p - 1)];
      }
    }
  }

  lemma EmbedsCompose(u: Str, t: Str, s: Str, f: seq<int>, h: seq<int>) returns (fh: seq<int>)
    requires Embeds(u, t, f) && Embeds(t, s, h)
    ensures Embeds(u, s, fh)
  {
    fh := seq(|f|, k requires 0 <= k < |f| => h[f[k]]);
  }

  /** Cancelling pairs only deletes characters: every simplification is a subsequence. */
  lemma {:induction false} ReducesViaSubsequence(s: Str, t: Str, steps: seq<(int, int)>, g: Graph) returns (f: seq<int>)
    requires ReducesVia(s, t, steps, g)
    ensures Embeds(t, s, f)
    decreases |steps|
  {
    if steps == [] {
      f := seq(|s|, k requires 0 <= k < |s| => k);
    } else {
      var c := Cancel(s, steps[0].0, steps[0].1);
      var h := CancelEmbeds(s, steps[0].0, steps[0].1);
      var f' := ReducesViaSubsequence(c, t, steps[1..], g);
      f := EmbedsCompose(t, c, s, f', h);
    }
  }

  lemma ReducesToSubsequence(s: Str, t: Str, g: Graph)
    requires ReducesTo(s, t, g)
    ensures Subsequence(t, s)
  {
    var steps: seq<(int, int)> :| ReducesVia(s, t, steps, g);
    var f := ReducesViaSubsequence(s, t, steps, g);
  }

  /** An irreducible string simplifies to nothing but itself. */
  lemma IrreducibleIsFinal(s: Str, t: Str, g: Graph)
    requires Irreducible(s, g) && ReducesTo(s, t, g)
    ensures t == s
  {
    var steps: seq<(int, int)> :| ReducesVia(s, t, steps, g);
  }

  /** A cancellation inside s is still one with context around s. */
  lemma CancellableInContext(a: Str, s: Str, b: Str, i: int, p: int, g: Graph)
    requires CancellablePair(s, i, p, g)
    ensures CancellablePair(a + s + b, |a| + i, |a| + p, g)
    ensures Cancel(a + s + b, |a| + i, |a| + p) == a + Cancel(s, i, p) + b
  {
    var x := a + s + b;
    forall k | |a| + i < k < |a| + p
      ensures Commutes(g, x[|a| + i], x[k])
    {
      assert x[k] == s[k - |a|];
    }
  }

  /** The cancellation steps, moved right by d positions. */
  function ShiftSteps(steps: seq<(int, int)>, d: int): (r: seq<(int, int)>)
    ensures |r| == |steps|
    ensures forall k | 0 <= k < |steps| :: r[k] == (steps[k].0 + d, steps[k].1 + d)
  {
    seq(|steps|, k requires 0 <= k < |steps| => (steps[k].0 + d, steps[k].1 + d))
  }

  lemma ShiftStepsTail(steps: seq<(int, int)>, d: int)
    requires steps != []
    ensures ShiftSteps(steps, d)[0] == (steps[0].0 + d, steps[0].1 + d)
    ensures ShiftSteps(steps, d)[1..] == ShiftSteps(steps[1..], d)
  {
  }

  lemma {:induction false} ReducesViaContext(a: Str, s: Str, t: Str, b: Str, steps: seq<(int, int)>, g: Graph)
    requires ReducesVia(s, t, steps, g)
    ensures ReducesVia(a + s + b, a + t + b, ShiftSteps(steps, |a|), g)
    decreases |steps|
  {
    var sh := ShiftSteps(steps, |a|);
    if steps != [] {
      var i, p := steps[0].0, steps[0].1;
      CancellableInContext(a, s, b, i, p, g);
      ReducesViaContext(a, Cancel(s, i, p), t, b, steps[1..], g);
      ShiftStepsTail(steps, |a|);
      ReducesViaUnfold(a + s + b, a + t + b, sh, g);
    }
  }

  lemma ReducesViaUnfold(s: Str, t: Str, steps: seq<(int, int)>, g: Graph)
    requires steps != []
    requires CancellablePair(s, steps[0].0, steps[0].1, g)
    requires ReducesVia(Cancel(s, steps[0].0, steps[0].1), t, steps[1..], g)
    ensures ReducesVia(s, t, steps, g)
  {
  }

  /** Simplification is compatible with concatenation on both sides. */
  lemma ReducesToContext(a: Str, s: Str, t: Str, b: Str, g: Graph)
    requires ReducesTo(s, t, g)
    ensures ReducesTo(a + s + b, a + t + b, g)
  {
    var steps: seq<(int, int)> :| ReducesVia(s, t, steps, g);
    ReducesViaContext(a, s, t, b, steps, g);
  }

  lemma ReducesToAppend(s: Str, t: Str, b: Str, g: Graph)
    requires ReducesTo(s, t, g)
    ensures ReducesTo(s + b, t + b, g)
  {
    ReducesToContext([], s, t, b, g);
    assert [] + s + b == s + b && [] + t + b == t + b;
  }

  /** A string followed by its mirror image cancels completely, in any graph. */
  lemma {:induction false} MirrorReducesToEmpty(s: Str, g: Graph)
    ensures ReducesTo(s + Reverse(s), [], g)
    decreases |s|
  {
    if |s| > 0 {
      var s' := s[..|s| - 1];
      var c := s[|s| - 1];
      assert s == s' + [c];
      assert Reverse(s) == [c] + Reverse(s');
      var x := s + Reverse(s);
      assert x == s' + [c, c] + Reverse(s');
      assert CancellablePair(x, |s'|, |s'| + 1, g);
      assert Cancel(x, |s'|, |s'| + 1) == s' + Reverse(s');
      MirrorReducesToEmpty(s', g);
      ReducesToCancel(x, |s'|, |s'| + 1, g);
      ReducesToTrans(x, s' + Reverse(s'), [], g);
    } else {
      assert s + Reverse(s) == [];
      ReducesToRefl([], g);
    }
  }

  /** A mirror pair after any prefix cancels away. */
  lemma DropMirror(u: Str, R: Str, g: Graph)
    ensures ReducesTo(u + (R + Reverse(R)), u, g)
  {
    MirrorReducesToEmpty(R, g);
    ReducesToContext(u, R + Reverse(R), [], [], g);
    assert u + (R + Reverse(R)) + [] == u + (R + Reverse(R));
    assert u + [] + [] == u;
  }

  /** Character k of a cancellation, read off the original string. */
  lemma CancelAt(s: Str, i: int, p: int, k: int)
    requires 0 <= i < p < |s| && 0 <= k < |s| - 2
    ensures Cancel(s, i, p)[k] == s[if k < i then k else if k < p - 1 then k + 1 else k + 2]
  {
  }

  /** Reversal maps a cancellable pair to the mirrored pair, and the cancellation to its reversal. */
  lemma CancelReverse(s: Str, i: int, p: int, g: Graph)
    requires CancellablePair(s, i, p, g)
    ensures CancellablePair(Reverse(s), |s| - 1 - p, |s| - 1 - i, g)
    ensures Cancel(Reverse(s), |s| - 1 - p, |s| - 1 - i) == Reverse(Cancel(s, i, p))
  {
    var n, r := |s|, Reverse(s);
    forall k | n - 1 - p < k < n - 1 - i
      ensures Commutes(g, r[n - 1 - p], r[k])
    {
      assert r[k] == s[n - 1 - k];
    }
    forall k | 0 <= k < n - 2
      ensures Cancel(r, n - 1 - p, n - 1 - i)[k] == Reverse(Cancel(s, i, p))[k]
    {
      CancelAt(r, n - 1 - p, n - 1 - i, k);
      CancelAt(s, i, p, n - 3 - k);
    }
  }

  lemma {:induction false} ReducesViaReverse(s: Str, t: Str, steps: seq<(int, int)>, g: Graph)
    requires ReducesVia(s, t, steps, g)
    ensures ReducesTo(Reverse(s), Reverse(t), g)
    decreases |steps|
  {
    if steps == [] {
      ReducesToRefl(Reverse(s), g);
    } else {
      var (i, p) := steps[0];
      ReducesViaReverse(Cancel(s, i, p), t, steps[1..], g);
      CancelReverse(s, i, p, g);
      ReducesToCancel(Reverse(s), |s| - 1 - p, |s| - 1 - i, g);
      ReducesToTrans(Reverse(s), Reverse(Cancel(s, i, p)), Reverse(t), g);
    }
  }

  /** Simplification commutes with reversal, which is how an inverse is spelled. */
  lemma ReducesToReverse(s: Str, t: Str, g: Graph)
    requires ReducesTo(s, t, g)
    ensures ReducesTo(Reverse(s), Reverse(t), g)
  {
    var steps: seq<(int, int)> :| ReducesVia(s, t, steps, g);
    ReducesViaReverse(s, t, steps, g);
  }

  /** g_c g_d g_c = g_d when c and d commute: the two copies of c cancel across d. */
  lemma CommutingTripleReduces(P: Str, d: CodePoint, c: CodePoint, Q: Str, g: Graph)
    requires Commutes(g, c, d)
    ensures ReducesTo(P + [c, d, c] + Q, P + [d] + Q, g)
  {
    var x := P + [c, d, c] + Q;
    assert x[|P|] == c && x[|P| + 1] == d && x[|P| + 2] == c;
    assert CancellablePair(x, |P|, |P| + 2, g);
    assert Cancel(x, |P|, |P| + 2) == P + [d] + Q;
    ReducesToCancel(x, |P|, |P| + 2, g);
  }

  /** A mirror pair between any prefix and suffix cancels away. */
  lemma DropInnerMirror(u: Str, m: Str, v: Str, g: Graph)
    ensures ReducesTo(u + (m + Reverse(m)) + v, u + v, g)
  {
    MirrorReducesToEmpty(m, g);
    ReducesToContext(u, m + Reverse(m), [], v, g);
    assert u + [] + v == u + v;
  }

  /**
    The word shape of a shift, L(j, J) L(i, J - j) L(j, J - i)^-1 spelled out:
    P c M1 d M2 c Q, with M1 and M2 mirror pairs, simplifies to P d Q when c and d commute.
  */
  lemma ShiftCollapse(P: Str, c: CodePoint, m1: Str, d: CodePoint, m2: Str, Q: Str, g: Graph)
    requires Commutes(g, c, d)
    ensures ReducesTo(P + [c] + (m1 + Reverse(m1)) + [d] + (m2 + Reverse(m2)) + [c] + Q, P + [d] + Q, g)
  {
    var s0 := P + [c] + (m1 + Reverse(m1)) + [d] + (m2 + Reverse(m2)) + [c] + Q;
    var rest1 := [d] + (m2 + Reverse(m2)) + [c] + Q;
    assert s0 == (P + [c]) + (m1 + Reverse(m1)) + rest1;
    DropInnerMirror(P + [c], m1, rest1, g);
    var s1 := (P + [c]) + rest1;
    assert s1 == (P + [c, d]) + (m2 + Reverse(m2)) + ([c] + Q);
    DropInnerMirror(P + [c, d], m2, [c] + Q, g);
    var s2 := (P + [c, d]) + ([c] + Q);
    assert s2 == P + [c, d, c] + Q;
    CommutingTripleReduces(P, d, c, Q, g);
    ReducesToTrans(s0, s1, s2, g);
    ReducesToTrans(s0, s2, P + [d] + Q, g);
  }

  /** If y simplifies to x, then x followed by the reversal of y simplifies to the empty string. */
  lemma EqualTimesInverseReduces(y: Str, x: Str, g: Graph)
    requires ReducesTo(y, x, g)
    ensures ReducesTo(x + Reverse(y), [], g)
  {
    ReducesToReverse(y, x, g);
    ReducesToContext(x, Reverse(y), Reverse(x), [], g);
    assert x + Reverse(y) + [] == x + Reverse(y) && x + Reverse(x) + [] == x + Reverse(x);
    MirrorReducesToEmpty(x, g);
    ReducesToTrans(x + Reverse(y), x + Reverse(x), [], g);
  }

  /** The spelling of w followed by its formal inverse cancels completely. */
  lemma TrivialRelator(w: Word, g: Graph)
    requires EncodableWord(w)
    ensures EncodableWord(w + RevNeg(w))
    ensures ReducesTo(WordToStr(w + RevNeg(w)), [], g)
  {
    WordToStrRevNeg(w);
    WordToStrAppend(w, RevNeg(w));
    MirrorReducesToEmpty(WordToStr(w), g);
  }

  /** The spelling of a letter's inverse followed by the letter is a string followed by its reversal. */
  lemma InversePairSpelling(x: Gen)
    requires EncodableGen(x)
    ensures EncodableWord([Neg(x), x])
    ensures WordToStr([Neg(x), x]) == Reverse(GenToStr(x)) + Reverse(Reverse(GenToStr(x)))
  {
    var S := GenToStr(x);
    GenToStrNeg(x);
    ReverseInvolutive(S);
    WordToStrSingle(x);
    WordToStrSingle(Neg(x));
    WordToStrAppend([Neg(x)], [x]);
    assert [Neg(x)] + [x] == [Neg(x), x];
  }

  /** The spelling of u followed by a letter's inverse and the letter simplifies to that of u. */
  lemma InversePairReduces(u: Word, x: Gen, g: Graph)
    requires EncodableWord(u) && EncodableGen(x)
    ensures EncodableWord(u + [Neg(x), x])
    ensures ReducesTo(WordToStr(u + [Neg(x), x]), WordToStr(u), g)
  {
    InversePairSpelling(x);
    WordToStrAppend(u, [Neg(x), x]);
    DropMirror(WordToStr(u), Reverse(GenToStr(x)), g);
  }

  /**
    Free reduction is sound for the string encoding: the spelling of
    w + [x] simplifies to the spelling of AddLetter(w, x).
  */
  lemma AddLetterReduces(w: Word, x: Gen, g: Graph)
    requires EncodableWord(w) && EncodableGen(x)
    ensures EncodableWord(w + [x]) && EncodableWord(AddLetter(w, x))
    ensures ReducesTo(WordToStr(w + [x]), WordToStr(AddLetter(w, x)), g)
  {
    assert forall y | y in AddLetter(w, x) :: y in w || y == x;
    if |w| > 0 && w[|w| - 1] == Neg(x) {
      var w' := w[..|w| - 1];
      assert w + [x] == w' + [Neg(x), x];
      assert forall y | y in w' :: y in w;
      assert AddLetter(w, x) == w';
      InversePairReduces(w', x, g);
    } else {
      ReducesToRefl(WordToStr(w + [x]), g);
    }
  }

  /** One letter of Word.__add__: x, followed by b, is added onto a. */
  lemma AddLetterReducesBefore(a: Word, x: Gen, b: Word, g: Graph)
    requires EncodableWord(a) && EncodableGen(x) && EncodableWord(b)
    ensures EncodableWord(a + [x] + b) && EncodableWord(AddLetter(a, x) + b)
    ensures ReducesTo(WordToStr(a + [x] + b), WordToStr(AddLetter(a, x) + b), g)
  {
    var a' := AddLetter(a, x);
    AddLetterReduces(a, x, g);
    WordToStrAppend(a + [x], b);
    WordToStrAppend(a', b);
    ReducesToAppend(WordToStr(a + [x]), WordToStr(a'), WordToStr(b), g);
  }

  /**
    Word.__add__ is sound for the string encoding: the spelling of a + b
    simplifies to the spelling of Concat(a, b).
  */
  lemma {:induction false} ConcatReduces(a: Word, b: Word, g: Graph)
    requires EncodableWord(a) && EncodableWord(b)
    ensures EncodableWord(a + b) && EncodableWord(Concat(a, b))
    ensures ReducesTo(WordToStr(a + b), WordToStr(Concat(a, b)), g)
    decreases |b|
  {
    EncodableAppend(a, b);
    if |b| > 0 {
      var x, b' := b[0], b[1..];
      assert b == [x] + b';
      EncodableAppend([x], b');
      assert a + b == a + [x] + b';
      AddLetterReducesBefore(a, x, b', g);
      ConcatReduces(AddLetter(a, x), b', g);
      ReducesToTrans(WordToStr(a + b), WordToStr(AddLetter(a, x) + b'), WordToStr(Concat(a, b)), g);
    } else {
      assert a + b == a;
      ReducesToRefl(WordToStr(a), g);
    }
  }

  /** The spelling of a letter sequence simplifies to the spelling of its LTW reduction. */
  lemma LTWReduces(lets: seq<Gen>, g: Graph)
    requires EncodableWord(lets)
    ensures EncodableWord(LTW(lets))
    ensures ReducesTo(WordToStr(lets), WordToStr(LTW(lets)), g)
  {
    ConcatReduces([], lets, g);
    assert [] + lets == lets;
  }

  /** The first position at or after j holding c (s[j:].index(c) + j), if any. */
  function NextFrom(s: Str, c: CodePoint, j: nat): (r: Option<nat>)
    ensures r.Some? ==> j <= r.value < |s| && s[r.value] == c
    ensures r.Some? ==> forall k | j <= k < r.value :: s[k] != c
    ensures r.None? ==> forall k | j <= k < |s| :: s[k] != c
    decreases |s| - j
  {
    if j >= |s| then None
    else if s[j] == c then Some(j)
    else NextFrom(s, c, j + 1)
  }

  /**
    The test SimplifyStr applies at position i: s[i] occurs again later, and
    every character before that next occurrence commutes with it.
  */
  predicate CodeTest(s: Str, i: nat, g: Graph)
    requires i < |s|
    ensures CodeTest(s, i, g) ==>
      NextFrom(s, s[i], i + 1).Some? && CancellablePair(s, i, NextFrom(s, s[i], i + 1).value, g)
  {
    match NextFrom(s, s[i], i + 1)
    case None => false
    case Some(p) => forall k | i < k < p :: Commutes(g, s[i], s[k])
  }

  /**
    The test passes exactly when s[i] has a cancellable partner and that partner is
    its next occurrence.
  */
  lemma CodeTestFirstPair(s: Str, i: nat, g: Graph)
    requires i < |s|
    ensures CodeTest(s, i, g) <==>
      exists p | i < p < |s| :: CancellablePair(s, i, p, g) && forall k | i < k < p :: s[k] != s[i]
  {
    var next := NextFrom(s, s[i], i + 1);
    if CodeTest(s, i, g) {
      assert CancellablePair(s, i, next.value, g);
    }
    if p :| i < p < |s| && CancellablePair(s, i, p, g) && forall k | i < k < p :: s[k] != s[i] {
      assert next.Some? && next.value == p;
    }
  }

  /** No position of s passes the test: SimplifyStr stops on s. */
  predicate Stuck(s: Str, g: Graph) {
    forall i | 0 <= i < |s| :: !CodeTest(s, i, g)
  }

  /**
    Checking only the next occurrence loses nothing: in a graph without
    self-loops, SimplifyStr stops exactly on the irreducible strings.
  */
  lemma StuckIffIrreducible(s: Str, g: Graph)
    requires Valid(g)
    ensures Stuck(s, g) <==> Irreducible(s, g)
  {
    if !Stuck(s, g) {
      var i :| 0 <= i < |s| && CodeTest(s, i, g);
      var p := NextFrom(s, s[i], i + 1).value;
      assert CancellablePair(s, i, p, g);
    }
    if !Irreducible(s, g) {
      var i, p :| 0 <= i < p < |s| && CancellablePair(s, i, p, g);
      var next := NextFrom(s, s[i], i + 1);
      assert next.Some?;
      if next.value < p {
        assert false;
      }
      assert CodeTest(s, i, g);
    }
  }

  /** Python's i = (ti + currshift) % n for a scan index ti. */
  function ScanPos(t: int, c: int, n: int): (i: int)
    requires n > 0
    ensures 0 <= i < n
    ensures 0 <= t + c < n ==> i == t + c
    ensures n <= t + c < 2 * n ==> i == t + c - n
    ensures t + c == -1 ==> i == n - 1
  {
    (t + c) % n
  }

  /** Every position is reached by the scan index (q - currshift) % n. */
  lemma ScanPosCovers(q: int, c: int, n: int)
    requires 0 <= q < n
    ensures 0 <= (q - c) % n < n
    ensures ScanPos((q - c) % n, c, n) == q
  {
    var t := (q - c) % n;
    var j := (q - c) / n;
    assert q - c == n * j + t;
    assert t + c == n * (-j) + q by {
      assert n * (-j) == -(n * j);
    }
    ModUnique(t + c, n, -j, q);
  }

  /** Division with remainder is unique. */
  lemma ModUnique(x: int, n: int, d: int, r: int)
    requires n > 0 && 0 <= r < n && x == n * d + r
    ensures x % n == r
  {
    var d' := x / n;
    assert x == n * d' + x % n;
    if d - d' >= 1 {
      assert n * (d - d') == x % n - r by {
        assert n * (d - d') == n * d - n * d';
      }
      MulAtLeast(n, d - d');
    } else if d' - d >= 1 {
      assert n * (d' - d) == r - x % n by {
        assert n * (d' - d) == n * d' - n * d;
      }
      MulAtLeast(n, d' - d);
    }
  }

  lemma {:induction false} MulAtLeast(n: int, m: int)
    requires n > 0 && m >= 1
    ensures n * m >= n
    decreases m
  {
    if m > 1 {
      MulAtLeast(n, m - 1);
      assert n * m == n * (m - 1) + n;
    }
  }

  /**
    The for-loop of lib.py SimplifyStr: try the positions in the cyclic order
    currshift, currshift + 1, ... (mod |s|) and stop at the first that passes
    the test. The result is the scan index ti of that position.
  */
  method Scan(s: Str, currshift: int, g: Graph) returns (r: Option<nat>)
    ensures r.Some? ==> r.value < |s| && CodeTest(s, ScanPos(r.value, currshift, |s|), g)
    ensures r.Some? ==> forall t | 0 <= t < r.value :: !CodeTest(s, ScanPos(t, currshift, |s|), g)
    ensures r.None? ==> Stuck(s, g)
  {
    var n := |s|;
    var ti := 0;
    while ti < n
      invariant 0 <= ti <= n
      invariant forall t | 0 <= t < ti :: !CodeTest(s, ScanPos(t, currshift, n), g)
    {
      var i := ScanPos(ti, currshift, n);
      var lt := s[i];
      var next := NextFrom(s, lt, i + 1);
      if next.Some? && forall k | i < k < next.value :: Commutes(g, lt, s[k]) {
        assert CodeTest(s, i, g);
        return Some(ti);
      }
      assert !CodeTest(s, i, g);
      ti := ti + 1;
    }
    forall q | 0 <= q < n
      ensures !CodeTest(s, q, g)
    {
      ScanPosCovers(q, currshift, n);
    }
    return None;
  }

  /** One more cancellation extends a witnessed simplification. */
  lemma {:induction false} ReducesViaSnoc(s0: Str, s: Str, steps: seq<(int, int)>, i: int, p: int, g: Graph)
    requires ReducesVia(s0, s, steps, g) && CancellablePair(s, i, p, g)
    ensures ReducesVia(s0, Cancel(s, i, p), steps + [(i, p)], g)
  {
    assert ReducesVia(Cancel(s, i, p), Cancel(s, i, p), [], g);
    assert [(i, p)][1..] == [];
    ReducesViaTrans(s0, s, Cancel(s, i, p), steps, [(i, p)], g);
  }

  /** What a witnessed simplification guarantees about its result. */
  lemma ReducesViaFacts(s0: Str, s: Str, steps: seq<(int, int)>, g: Graph)
    requires ReducesVia(s0, s, steps, g)
    ensures ReducesTo(s0, s, g) && Subsequence(s, s0)
    ensures |s| <= |s0| && (|s0| - |s|) % 2 == 0
  {
    ReducesViaWitness(s0, s, steps, g);
    ReducesViaIsSubsequence(s0, s, steps, g);
    ReducesViaShrinks(s0, s, steps, g);
  }

  lemma ReducesViaWitness(s0: Str, s: Str, steps: seq<(int, int)>, g: Graph)
    requires ReducesVia(s0, s, steps, g)
    ensures ReducesTo(s0, s, g)
  {
  }

  lemma ReducesViaIsSubsequence(s0: Str, s: Str, steps: seq<(int, int)>, g: Graph)
    requires ReducesVia(s0, s, steps, g)
    ensures Subsequence(s, s0)
  {
    var f := ReducesViaSubsequence(s0, s, steps, g);
  }

  /**
    lib.py SimplifyStr: scan cyclically, starting just before the last
    cancellation, cancel the first position whose character passes the test
    against its next occurrence, and stop after a full scan without one.
    The loop of lib.py runs while upd and n > 0; a scan of the empty string
    finds nothing, so leaving the loop exactly when a scan finds nothing is
    the same loop.
  */
  method SimplifyStr(s0: Str, g: Graph) returns (s: Str)
    ensures ReducesTo(s0, s, g)
    ensures Stuck(s, g)
    ensures Subsequence(s, s0)
    ensures |s| <= |s0| && (|s0| - |s|) % 2 == 0
  {
    s := s0;
    ghost var steps: seq<(int, int)> := [];
    var currshift := 0;
    while true
      invariant ReducesVia(s0, s, steps, g)
      decreases |s|
    {
      var found := Scan(s, currshift, g);
      if found.None? {
        ReducesViaFacts(s0, s, steps, g);
        return;
      }
      var i := ScanPos(found.value, currshift, |s|);
      var nextpos := NextFrom(s, s[i], i + 1).value;
      assert CancellablePair(s, i, nextpos, g);
      ReducesViaSnoc(s0, s, steps, i, nextpos, g);
      steps := steps + [(i, nextpos)];
      s := Cancel(s, i, nextpos);
      currshift := i - 1;
    }
  }

  /** Python values met by the final line of IsARelation. */
  datatype PyValue = PyStr(chars: Str) | PyInt(num: int) | PyBool(truth: bool)

  datatype PyError = TypeError

  /** Python's == : a string equals only an equal string; bool compares as 0/1. */
  function PyEq(a: PyValue, b: PyValue): (r: bool)
    ensures a.PyStr? != b.PyStr? ==> !r
    ensures a.PyStr? && b.PyStr? ==> (r <==> a.chars == b.chars)
  {
    match (a, b)
    case (PyStr(x), PyStr(y)) => x == y
    case (PyStr(_), _) => false
    case (_, PyStr(_)) => false
    case _ => PyNumber(a) == PyNumber(b)
  }

  function PyNumber(a: PyValue): int
    requires !a.PyStr?
  {
    match a
    case PyInt(k) => k
    case PyBool(t) => if t then 1 else 0
  }

  /** Python's len: the length of a string, and a TypeError on a number or a boolean. */
  function PyLen(v: PyValue): (r: Result<int, PyError>)
    ensures r.Success? <==> v.PyStr?
    ensures r.Success? ==> r.value == |v.chars|
  {
    if v.PyStr? then Success(|v.chars|) else Failure(TypeError)
  }

  /** The verdict IsARelation evidently intends: len(t) == 0. */
  function VerdictIntended(t: Str): (r: bool)
    ensures r <==> t == []
  {
    PyLen(PyStr(t)) == Success(0)
  }

  /** The verdict as lib.py writes it, len(t == 0): it raises for every t. */
  function VerdictAsWritten(t: Str): (r: Result<int, PyError>)
    ensures r == Failure(TypeError)
  {
    PyLen(PyBool(PyEq(PyStr(t), PyInt(0))))
  }

  /** On the empty word the intended verdict is "relation", the written one raises. */
  lemma VerdictDiscrepancy()
    ensures VerdictAsWritten(WordToStr([])).Failure?
    ensures VerdictIntended(WordToStr([]))
  {
  }

  /** lib.py IsARelation as written: it never returns, for any word and graph. */
  method IsARelationAsWritten(W: Word, g: Graph) returns (r: Result<int, PyError>)
    requires EncodableWord(W)
    ensures r.Failure? && r.error == TypeError
  {
    var t := SimplifyStr(WordToStr(W), g);
    r := VerdictAsWritten(t);
  }

  /**
    lib.py IsARelation, corrected: W is reported a relation when the
    simplification of its spelling is empty.
  */
  method IsARelation(W: Word, g: Graph) returns (b: bool)
    requires EncodableWord(W)
    ensures b ==> ReducesTo(WordToStr(W), [], g)
    ensures W == [] ==> b
    ensures Irreducible(WordToStr(W), g) ==> (b <==> W == [])
  {
    var s := WordToStr(W);
    var t := SimplifyStr(s, g);
    b := VerdictIntended(t);
    ReducesToShrinks(s, t, g);
    if Irreducible(s, g) {
      IrreducibleIsFinal(s, t, g);
    }
  }
}

=== FILE: soundness.dfy ===
/**
  The identities of the right-angled Coxeter group behind each rewriting
  step of GenMakeDistinguished, checked with the string encoding: each step
  replaces L(i, J) by a word whose spelling simplifies to the spelling of
  L(i, J), so the rewritten word is equal to L(i, J) in the group.
*/
module EngineSoundness {
  import opened Graphs
  import opened Generators
  import opened Words
  import opened Engine
  import opened Encoding
  import opened Simplify

  /**
    The spelling of the shift of L(i, J) toward j, with P_S the ascending
    spelling of S and B = J - {i, j}:
    P_J j P_(J-j)^-1 . P_(J-j) i P_B^-1 . P_B j P_(J-i)^-1.
  */
  lemma GenShiftSpelling(K: Gen, j: int)
    requires EncodableGen(K) && !K.inverted && j in K.amb && j != K.elem
    ensures EncodableWord(GenShift(K, j))
    ensures var J, i, B := K.amb, K.elem, K.amb - {K.elem, j};
            var m1, m2 := Reverse(AscendingSpelling(J - {j})), Reverse(AscendingSpelling(B));
            WordToStr(GenShift(K, j))
            == AscendingSpelling(J) + [IntToChar(j)] + (m1 + Reverse(m1)) + [IntToChar(i)]
               + (m2 + Reverse(m2)) + [IntToChar(j)] + Reverse(AscendingSpelling(J - {i}))
  {
    var J, i, B := K.amb, K.elem, K.amb - {K.elem, j};
    var x1, x2, x3 := L(j, J, false), L(i, J - {j}, false), L(j, J - {i}, true);
    assert GenShift(K, j) == [x1] + ([x2] + [x3]);
    WordToStrTriple(x1, x2, x3);
    var m1, m2 := Reverse(AscendingSpelling(J - {j})), Reverse(AscendingSpelling(B));
    ShiftLetterSpellings(K, j);
    ShiftShape(WordToStr(GenShift(K, j)), GenToStr(x1), GenToStr(x2), GenToStr(x3),
               AscendingSpelling(J), IntToChar(j), m1, IntToChar(i), m2, Reverse(AscendingSpelling(J - {i})));
  }

  /** The spellings of the three letters of the shift, in the form the cancellations need. */
  lemma ShiftLetterSpellings(K: Gen, j: int)
    requires EncodableGen(K) && !K.inverted && j in K.amb && j != K.elem
    ensures var J, i, B := K.amb, K.elem, K.amb - {K.elem, j};
            var m1, m2 := Reverse(AscendingSpelling(J - {j})), Reverse(AscendingSpelling(B));
            && EncodableGen(L(j, J, false)) && EncodableGen(L(i, J - {j}, false)) && EncodableGen(L(j, J - {i}, true))
            && GenToStr(L(j, J, false)) == AscendingSpelling(J) + [IntToChar(j)] + m1
            && GenToStr(L(i, J - {j}, false)) == Reverse(m1) + [IntToChar(i)] + m2
            && GenToStr(L(j, J - {i}, true)) == Reverse(m2) + [IntToChar(j)] + Reverse(AscendingSpelling(J - {i}))
  {
    var J, i, B := K.amb, K.elem, K.amb - {K.elem, j};
    assert J - {j} - {i} == B && J - {i} - {j} == B;
    GenToStrParts(L(j, J, false));
    GenToStrParts(L(i, J - {j}, false));
    ReverseInvolutive(AscendingSpelling(J - {j}));
    ReverseInvolutive(AscendingSpelling(B));
    InvertedSpelling(L(j, J - {i}, true));
  }

  /** The spelling of L(i, J)^-1: P_(J-i) i P_J^-1. */
  lemma InvertedSpelling(K: Gen)
    requires EncodableGen(K) && K.inverted
    ensures GenToStr(K) == AscendingSpelling(K.amb - {K.elem}) + [IntToChar(K.elem)]
                           + Reverse(AscendingSpelling(K.amb))
  {
    NegInvolutive(K);
    GenToStrParts(Neg(K));
    ReverseOfBracket(AscendingSpelling(K.amb), IntToChar(K.elem), AscendingSpelling(K.amb - {K.elem}));
  }

  lemma ReverseOfBracket(a: Str, c: CodePoint, b: Str)
    ensures Reverse(a + [c] + Reverse(b)) == b + [c] + Reverse(a)
  {
    ReverseAppend(a + [c], Reverse(b));
    ReverseAppend(a, [c]);
    ReverseInvolutive(b);
  }

  lemma WordToStrTriple(x1: Gen, x2: Gen, x3: Gen)
    requires EncodableGen(x1) && EncodableGen(x2) && EncodableGen(x3)
    ensures EncodableWord([x1] + ([x2] + [x3]))
    ensures WordToStr([x1] + ([x2] + [x3])) == GenToStr(x1) + (GenToStr(x2) + GenToStr(x3))
  {
    WordToStrSingle(x3);
    WordToStrCons(x2, [x3]);
    WordToStrCons(x1, [x2] + [x3]);
  }

  /** Regrouping the three spellings around the two mirror pairs. */
  lemma ShiftShape(w: Str, g1: Str, g2: Str, g3: Str, P: Str, c: CodePoint, m1: Str, d: CodePoint, m2: Str, Q: Str)
    requires w == g1 + (g2 + g3)
    requires g1 == P + [c] + m1 && g2 == Reverse(m1) + [d] + m2 && g3 == Reverse(m2) + [c] + Q
    ensures w == P + [c] + (m1 + Reverse(m1)) + [d] + (m2 + Reverse(m2)) + [c] + Q
  {
  }

  /**
    lib.py:246-251: for a neighbour j of i, L(j, J) L(i, J - j) L(j, J - i)^-1
    equals L(i, J), for either sign: its spelling simplifies to that of L(i, J).
  */
  lemma {:induction false} GenShiftReduces(K: Gen, j: int, g: Graph)
    requires Valid(g) && HasEdge(g, K.elem, j)
    requires EncodableGen(K) && j in K.amb && j != K.elem
    ensures EncodableWord(GenShift(K, j))
    ensures ReducesTo(WordToStr(GenShift(K, j)), GenToStr(K), g)
    decreases K.inverted
  {
    if !K.inverted {
      var J, i, B := K.amb, K.elem, K.amb - {K.elem, j};
      GenShiftSpelling(K, j);
      assert Commutes(g, IntToChar(j), IntToChar(i));
      ShiftCollapse(AscendingSpelling(J), IntToChar(j), Reverse(AscendingSpelling(J - {j})), IntToChar(i),
                    Reverse(AscendingSpelling(B)), Reverse(AscendingSpelling(J - {i})), g);
      GenToStrParts(K);
    } else {
      var K' := Neg(K);
      NegInvolutive(K);
      GenShiftReduces(K', j, g);
      GenShiftNeg(K', j);
      ShiftLettersReduced(K.elem, K.amb, j);
      WordToStrInvert(GenShift(K', j));
      GenToStrNeg(K');
      ReducesToReverse(WordToStr(GenShift(K', j)), GenToStr(K'), g);
    }
  }

  /** The same identity as a relator: L(i, J) followed by the inverse of its shift spells a relation. */
  lemma GenShiftRelator(K: Gen, j: int, g: Graph)
    requires Valid(g) && HasEdge(g, K.elem, j)
    requires EncodableGen(K) && j in K.amb && j != K.elem
    ensures EncodableWord([K] + RevNeg(GenShift(K, j)))
    ensures ReducesTo(WordToStr([K] + RevNeg(GenShift(K, j))), [], g)
  {
    GenShiftReduces(K, j, g);
    RelatorSpelling(K, GenShift(K, j));
    EqualTimesInverseReduces(WordToStr(GenShift(K, j)), GenToStr(K), g);
  }

  /** The spelling of K followed by the formal inverse of w. */
  lemma RelatorSpelling(K: Gen, w: Word)
    requires EncodableGen(K) && EncodableWord(w)
    ensures EncodableWord([K] + RevNeg(w))
    ensures WordToStr([K] + RevNeg(w)) == GenToStr(K) + Reverse(WordToStr(w))
  {
    WordToStrRevNeg(w);
    WordToStrCons(K, RevNeg(w));
  }

  /** lib.py:229: L(max J, J) = 1, for either sign. */
  lemma {:induction false} MaxVertexReduces(K: Gen, g: Graph)
    requires EncodableGen(K) && K.elem == Max(K.amb)
    ensures ReducesTo(GenToStr(K), [], g)
    decreases K.inverted
  {
    if !K.inverted {
      var J, m := K.amb, K.elem;
      GenToStrParts(K);
      AscendingSpellingMax(J, m);
      DoubledMiddleIsMirror(AscendingSpelling(J - {m}), IntToChar(m));
      MirrorReducesToEmpty(AscendingSpelling(J), g);
    } else {
      NegInvolutive(K);
      MaxVertexReduces(Neg(K), g);
      GenToStrNeg(Neg(K));
      ReducesToReverse(GenToStr(Neg(K)), [], g);
      assert Reverse<CodePoint>([]) == [];
    }
  }

  /** lib.py:233-243: when i is a neighbour of m = max J, L(i, J) = L(i, J - m), for either sign. */
  lemma {:induction false} EdgeDropReduces(K: Gen, g: Graph)
    requires Valid(g) && EncodableGen(K)
    requires K.elem != Max(K.amb) && HasEdge(g, K.elem, Max(K.amb))
    ensures EncodableGen(L(K.elem, K.amb - {Max(K.amb)}, K.inverted))
    ensures ReducesTo(GenToStr(K), GenToStr(L(K.elem, K.amb - {Max(K.amb)}, K.inverted)), g)
    decreases K.inverted
  {
    var J, i, m := K.amb, K.elem, Max(K.amb);
    if !K.inverted {
      var B := J - {i, m};
      assert J - {m} - {i} == B && J - {i} - {m} == B;
      var p, b := AscendingSpelling(J - {m}), AscendingSpelling(B);
      GenToStrParts(K);
      GenToStrParts(L(i, J - {m}, false));
      AscendingSpellingMax(J, m);
      AscendingSpellingMax(J - {i}, m);
      EdgeDropShape(p, b, IntToChar(m), IntToChar(i));
      assert Commutes(g, IntToChar(m), IntToChar(i));
      CommutingTripleReduces(p, IntToChar(i), IntToChar(m), Reverse(b), g);
    } else {
      NegInvolutive(K);
      EdgeDropReduces(Neg(K), g);
      var D := L(i, J - {m}, false);
      GenToStrNeg(Neg(K));
      GenToStrNeg(D);
      ReducesToReverse(GenToStr(Neg(K)), GenToStr(D), g);
    }
  }

  lemma DoubledMiddleIsMirror(a: Str, c: CodePoint)
    ensures (a + [c]) + [c] + Reverse(a) == (a + [c]) + Reverse(a + [c])
  {
    ReverseAppend(a, [c]);
  }

  lemma EdgeDropShape(p: Str, b: Str, cm: CodePoint, ci: CodePoint)
    ensures (p + [cm]) + [ci] + Reverse(b + [cm]) == p + [cm, ci, cm] + Reverse(b)
  {
    ReverseAppend(b, [cm]);
  }
}

=== FILE: words.dfy ===
/**
  The class Word of lib.py: a word in the free group on the generators, kept
  freely reduced by the single cancellation rule of `AddLetter`, which
  concatenation (`+`), inversion (unary `-`), subtraction and `LTW` all reuse.
*/
module Words {
  import opened Generators

  type Word = seq<Gen>

  /** No letter is immediately followed by its inverse. */
  predicate Reduced(w: Word) {
    forall k | 0 <= k < |w| - 1 :: w[k + 1] != Neg(w[k])
  }

  /** The inverse of w in the free group: letters reversed and negated. */
  function RevNeg(w: Word): (r: Word)
    ensures |r| == |w|
    ensures forall k | 0 <= k < |w| :: r[k] == Neg(w[|w| - 1 - k])
  {
    seq(|w|, k requires 0 <= k < |w| => Neg(w[|w| - 1 - k]))
  }

  lemma RevNegReduced(w: Word)
    requires Reduced(w)
    ensures Reduced(RevNeg(w))
  {
    var r := RevNeg(w);
    forall k | 0 <= k < |r| - 1
      ensures r[k + 1] != Neg(r[k])
    {
      var m := |w| - 2 - k;
      NegInvolutive(w[m + 1]);
      NegInvolutive(w[m]);
    }
  }

  lemma RevNegInvolutive(w: Word)
    ensures RevNeg(RevNeg(w)) == w
  {
    forall k | 0 <= k < |w|
      ensures RevNeg(RevNeg(w))[k] == w[k]
    {
      NegInvolutive(w[k]);
    }
  }

  lemma RevNegAppend(a: Word, x: Gen)
    ensures RevNeg(a + [x]) == [Neg(x)] + RevNeg(a)
  {
  }

  /** Word.AddLetter: the last letter cancels against its inverse, otherwise the letter is appended. */
  function AddLetter(w: Word, x: Gen): (r: Word)
    ensures Reduced(w) ==> Reduced(r)
    ensures r == w + [x] || (|w| > 0 && r == w[..|w| - 1])
    ensures |r| < |w| <==> |w| > 0 && w[|w| - 1] == Neg(x)
  {
    if |w| == 0 then [x]
    else if w[|w| - 1] == Neg(x) then w[..|w| - 1]
    else w + [x]
  }

  /** Appending x and then its inverse gives back any reduced word. */
  lemma AddLetterUndo(w: Word, x: Gen)
    requires Reduced(w)
    ensures AddLetter(AddLetter(w, x), Neg(x)) == w
  {
    NegInvolutive(x);
    if |w| > 0 && w[|w| - 1] == Neg(x) {
      var w' := w[..|w| - 1];
      if |w'| > 0 {
        assert w[|w'|] != Neg(w[|w'| - 1]);
        NegInvolutive(w'[|w'| - 1]);
      }
      assert w' + [Neg(x)] == w;
    } else {
      assert (w + [x])[..|w|] == w;
    }
  }

  /** Word.__add__: the letters of b appended one by one onto a. */
  function Concat(a: Word, b: Word): (r: Word)
    ensures Reduced(a) ==> Reduced(r)
    ensures forall x | x in r :: x in a || x in b
    ensures |r| <= |a| + |b| && (|a| + |b| - |r|) % 2 == 0
    decreases |b|
  {
    if |b| == 0 then a else Concat(AddLetter(a, b[0]), b[1..])
  }

  /** Appending s then t letter by letter is appending s + t. */
  lemma {:induction false} ConcatSplit(a: Word, s: Word, t: Word)
    ensures Concat(a, s + t) == Concat(Concat(a, s), t)
    decreases |s|
  {
    if |s| > 0 {
      assert (s + t)[0] == s[0];
      assert (s + t)[1..] == s[1..] + t;
      ConcatSplit(AddLetter(a, s[0]), s[1..], t);
    } else {
      assert s + t == t;
    }
  }

  /** When a followed by b is already reduced, no cancellation fires. */
  lemma {:induction false} ConcatNoCancel(a: Word, b: Word)
    requires Reduced(a + b)
    ensures Concat(a, b) == a + b
    decreases |b|
  {
    if |b| > 0 {
      assert (a + b)[|a|] == b[0];
      if |a| > 0 {
        assert (a + b)[|a| - 1] == a[|a| - 1];
      }
      assert AddLetter(a, b[0]) == a + [b[0]];
      assert (a + [b[0]]) + b[1..] == a + b;
      ConcatNoCancel(a + [b[0]], b[1..]);
    }
  }

  /** Appending the inverse of a suffix s cancels s completely. */
  lemma {:induction false} ConcatCancelsSuffix(a: Word, s: Word)
    ensures Concat(a + s, RevNeg(s)) == a
    decreases |s|
  {
    if |s| > 0 {
      var s' := s[..|s| - 1];
      var x := s[|s| - 1];
      assert s == s' + [x];
      RevNegAppend(s', x);
      NegInvolutive(x);
      assert (a + s)[|a + s| - 1] == x;
      assert (a + s)[..|a + s| - 1] == a + s';
      assert AddLetter(a + s, Neg(x)) == a + s';
      assert RevNeg(s)[1..] == RevNeg(s');
      ConcatCancelsSuffix(a, s');
    }
  }

  /** Word.__neg__: the letters of w, last first, negated and appended onto the empty word. */
  function Invert(w: Word): (r: Word)
    ensures Reduced(r)
    ensures |r| <= |w|
  {
    Concat([], RevNeg(w))
  }

  /** On a reduced word, inversion is the free-group inverse and cancels nothing. */
  lemma InvertReduced(w: Word)
    requires Reduced(w)
    ensures Invert(w) == RevNeg(w)
  {
    RevNegReduced(w);
    ConcatNoCancel([], RevNeg(w));
    assert [] + RevNeg(w) == RevNeg(w);
  }

  /** Inversion is an involution on reduced words. */
  lemma InvertInvolutive(w: Word)
    requires Reduced(w)
    ensures Invert(Invert(w)) == w
  {
    InvertReduced(w);
    RevNegReduced(w);
    InvertReduced(RevNeg(w));
    RevNegInvolutive(w);
  }

  /** A reduced word followed by its inverse reduces to the empty word. */
  lemma ConcatInverse(w: Word)
    requires Reduced(w)
    ensures Concat(w, Invert(w)) == []
    ensures Minus(w, w) == []
  {
    InvertReduced(w);
    ConcatCancelsSuffix([], w);
    assert [] + w == w;
  }

  /** Word.__sub__. */
  function Minus(a: Word, b: Word): (r: Word)
    ensures Reduced(a) ==> Reduced(r)
  {
    Concat(a, Invert(b))
  }

  /** lib.py LTW: the reduced word of a sequence of letters. */
  function LTW(lets: seq<Gen>): (r: Word)
    ensures Reduced(r)
    ensures forall x | x in r :: x in lets
  {
    Concat([], lets)
  }

  /** A letter followed at once by its inverse vanishes from the reduced word. */
  lemma PairVanishes(a: seq<Gen>, x: Gen, b: seq<Gen>)
    ensures LTW(a + [x, Neg(x)] + b) == LTW(a + b)
  {
    assert a + [x, Neg(x)] + b == a + ([x, Neg(x)] + b);
    ConcatSplit([], a, [x, Neg(x)] + b);
    ConcatPairVanishes(Concat([], a), x, b);
    ConcatSplit([], a, b);
  }

  /** On a reduced word, appending x, its inverse and then b is appending b. */
  lemma ConcatPairVanishes(w: Word, x: Gen, b: Word)
    requires Reduced(w)
    ensures Concat(w, [x, Neg(x)] + b) == Concat(w, b)
  {
    ConcatSplit(w, [x, Neg(x)], b);
    ConcatPairUndo(w, x);
  }

  /** Adding x and then its inverse to a reduced word changes nothing. */
  lemma ConcatPairUndo(w: Word, x: Gen)
    requires Reduced(w)
    ensures Concat(w, [x, Neg(x)]) == w
  {
    var w1 := AddLetter(w, x);
    assert [x, Neg(x)][0] == x && [x, Neg(x)][1..] == [Neg(x)];
    assert Concat(w, [x, Neg(x)]) == Concat(w1, [Neg(x)]);
    assert [Neg(x)][1..] == [];
    assert Concat(w1, [Neg(x)]) == Concat(AddLetter(w1, Neg(x)), []);
    AddLetterUndo(w, x);
  }

  /** Reduction leaves an already reduced sequence unchanged. */
  lemma LTWReduced(lets: seq<Gen>)
    requires Reduced(lets)
    ensures LTW(lets) == lets
  {
    ConcatNoCancel([], lets);
    assert [] + lets == lets;
  }
}

=== FILE: wrappers.dfy ===
/** Failure-carrying results shared by the modules of the model. */
module Wrappers {

  datatype Option<+T> = None | Some(value: T)

  datatype Result<+R, +E> = Success(value: R) | Failure(error: E)

}
